=== FILE: README.md ===
# SVGA player core in Dafny

A model of the timing and decoding core of SVGAPlayer-Web-Lite, a browser player for SVGA
animations, with proofs about it. The model covers four parts.

- **The animator** (`animator.dfy`, module `Animator`). It is a clock that turns elapsed
  wall-clock time into a fraction of a scalar range `[startValue, endValue]`.
  - `Launch` back-projects the start time by `currentValue`'s share of the range. That resumes
    play in place only when the range starts at 0.
  - `Tick` wraps the elapsed time modulo the duration. Once `elapsed >= duration * loop`, it snaps
    instead to the end the fill rule names and ends the run.
  - Each call of the host's tick source is an explicit `Tick(s, now)`. The callbacks it fires come
    back in order as `Signal`s.
- **The player** (`player.dfy`, module `Player`). It covers:
  - `mount`, `set`, `start`, `resume`, `pause`, `stop`, `clear`, `destroy` and `$on('end')`;
  - the derivation of the animator's configuration on every start, in `Configure`, `Bounds`,
    `EffectiveFrames`, `Duration`, `LoopCount` and `FillRule`;
  - the `onUpdate` closure that maps animated values to frame indices.

  Renderer calls and handler calls are recorded as `Effect`s. A call that throws returns the state
  as it was at the throw, including any fields it had already written.
- **The parser** (`parser.dfy`, module `Parser`). `do` checks the four-octet header against the
  ZIP local file header signature `50 4B 03 04` of the 1.x format (section 4.3.7 of PKWARE's
  APPNOTE.TXT). It then checks for missing data and a missing worker, and dispatches one request.
  That request goes either to a background worker or to the in-page stand-in.
- **The decode worker** (`decode_worker.dfy`, module `DecodeWorker`). The pipeline is inflate,
  then schema decode, then the per-key image transform, then one posted scene.
  - Inflate and decode are foreign libraries, so they enter as a `Codec` of functions that may fail.
  - The image transform reads each byte array one character per octet and Base64-encodes it.
    Base64 follows section 4 of RFC 4648 and has a decoder partner with a proved round trip
    (`base64.dfy`).

`common.dfy` holds `Option`, `Result` and `byte`. `video.dfy` holds the decoded movie and the
scene handed to the player.

Times, fractions and frame values are `real`. JavaScript's `%` is modelled as a remainder with
truncated quotient, which takes the sign of the dividend (`Animator.Rem`). That sign matters: a
reverse resume produces a negative elapsed time.

The model follows the code where it departs from what a reader would expect:

- `loop: false` becomes an infinite loop count, because `false <= 0` holds in JavaScript. The
  `=== false ? 1` branch at core/player/index.ts:230 suggests one pass was meant, but that branch
  can never be taken (`Player.LoopCount`).
- A buffer shorter than four octets makes `new Uint8Array(data, 0, 4)` throw a range error before
  any other check (`Parser.Header`). Missing data views as an empty array, passes the signature
  check, and then fails as "data not found".
- With a real worker, a failing decode stage posts nothing, so the promise never settles. Only
  the in-page stand-in rejects, because the stage throws inside the promise executor (`Parser.Dispatch`).
- One would expect the current frame to stay within `0 ..= totalFramesCount`, but it does not: a
  reverse resume lands past the last frame (`Player.ReverseResumeOvershoots`).
- The reset at the last frame (core/player/index.ts:214-216) sets the frame to `startFrame`, and
  the range also starts at `startFrame`. So a forward start on the last frame, with `endFrame`
  0, `2 * startFrame` below the last frame index, at least one pass, and its first tick at the
  instant of the start, lands at twice `startFrame` (`Player.RestartDoublesStartFrame`). Only
  without a start frame does it replay from frame 0 (`Player.RestartFromLastFrame`).
- The duration can be zero or negative. This happens when `endFrame <= 0` and
  `startFrame >= frames` (`Player.EffectiveFrames`).

## Model

| member | source | states |
|---|---|---|
| `Animator.AnimatedValue` | core/player/animator.ts:36-38 | fraction 0 gives `startValue`, fraction 1 gives `endValue`, and a fraction in [0, 1] gives a value between the two ends |
| `Animator.Rem` | core/player/animator.ts:102 | the remainder has the dividend's sign and a smaller magnitude than the divisor, and it differs from the dividend by a whole multiple of the divisor |
| `Animator.Tick` | core/player/animator.ts:74-115 | a stopped animator is left unchanged with no callbacks; a running one fires exactly one `onUpdate` with the new value, then either the next tick request or `onEnd`; it stops exactly when `elapsed >= duration * loop`; the end fraction is 0 under fill rule 1 and 1 otherwise, so the final value is exactly one end; a running fraction lies in [0, 1) for non-negative elapsed time and a positive duration; the configuration and start time never change |
| `Animator.DeltaTime` | core/player/animator.ts:91-115 | the run ends exactly when `elapsed >= duration * loop`; while it runs the fraction is the remainder of the elapsed time over the duration and one `onUpdate` fires; when it ends the fraction is 0 under fill rule 1 and 1 otherwise, the timer worker is released, and `onUpdate` then `onEnd` fire; the configuration and start time are unchanged |
| `Animator.PassesBeforeEnd` | core/player/animator.ts:98-103 | with `n` passes the run continues exactly while fewer than `n` durations have elapsed |
| `Animator.InfiniteNeverEnds` | core/player/animator.ts:98 | with an infinite loop count and a positive duration no tick ends the run, however late, and none fires `onEnd` |
| `Animator.Launch` | core/player/animator.ts:45-57 | the animator runs from fraction 0; a zero `currentValue` starts the clock now; otherwise the start time moves back by the share of the duration that `currentValue` is of the range; a timer worker is held when one was held or `noExecutionDelay` is set; the range, duration, loop, fill rule and delay mode are unchanged |
| `Animator.Start` | core/player/animator.ts:28-30 | a start fires `onStart`, then one `onUpdate` with the new value, then either the next tick request or `onEnd`; the configuration is unchanged; the start time is `now` for a zero `currentValue` and otherwise lies back from `now` by the share of the duration that `currentValue` is of the range; the run continues exactly when the first tick's elapsed time has not reached `duration * loop`, and then its fraction is the truncated remainder of that elapsed time over the duration and it keeps the worker the start took; otherwise the fraction is the end the fill rule names and the worker is released |
| `Animator.ResumeLandsOnOffset` | core/player/animator.ts:47-50 | starting from `currentValue` and ticking at the same instant yields `startValue + currentValue`, not `currentValue`, and the run continues |
| `Animator.OneSecondToTen` | core/player/animator.ts:98-103 | a single pass from 0 to 10 over 1000 ms is at 5 after 500 ms and ends on 10 at 1000 ms |
| `Animator.Stop` | core/player/animator.ts:62-69 | the animator is not running and holds no worker; nothing else changes |
| `Animator.StopIdempotent` | core/player/animator.ts:62-69 | stopping twice is stopping once |
| `Animator.StoppedIsSilent` | core/player/animator.ts:74-75 | a tick after `stop` changes nothing and fires nothing |
| `Animator.Run` | core/player/animator.ts:74-89 | over any sequence of ticks the configuration and start time stay fixed, and a run that has stopped never restarts |
| `Animator.EndedIsLast` | core/player/animator.ts:105-114 | over any sequence of ticks `onEnd` fires at most once and nothing follows it; it fires exactly when a running animator ends; a stopped animator fires nothing |
| `Player.Set` | core/player/index.ts:83-114 | `loop`, `fillMode`, `playMode` and `cacheFrames` take the given value and keep the old one when absent; a non-zero `startFrame` or `endFrame` replaces its field, while 0 or an absent one keeps the old value; `noExecutionDelay` is on exactly when it is given as true; nothing else changes; after `destroy` it throws, with the fields already written and the animator untouched |
| `Player.SetKeepsFrameBounds` | core/player/index.ts:88-89 | `set` cannot reset `startFrame` or `endFrame` to 0 |
| `Player.Mount` | core/player/index.ts:121-134 | the current frame and progress become 0, the last frame index becomes `frames - 1`, the scene is stored, and nothing else changes; the renderer prepares, clears and resizes to the scene; after `destroy` the promise rejects with those fields already written |
| `Player.RemountReplaces` | core/player/index.ts:121-126 | mounting a second scene leaves the same state as mounting only that scene |
| `Player.Create` | core/player/index.ts:62-81 | a new player has the given scene mounted, or none, and has not been destroyed; without options it loops forever, plays forwards over the whole scene and is not running; with options, `loop`, `fillMode` and `playMode` take the given value or default to `true`, `forwards` and `forwards`, `startFrame` and `endFrame` take the given value or 0, and `cacheFrames` and `noExecutionDelay` are on exactly when given as true |
| `Player.RestartFrame` | core/player/index.ts:214-216 | at the last frame a start restarts from `startFrame`; otherwise it continues from the current frame |
| `Player.Bounds` | core/player/index.ts:218-219 | the forward range runs from `startFrame`, or 0 when it is 0 (unset), to `endFrame`, or the last frame index when it is 0 (unset); a backward range swaps the two ends |
| `Player.FallbacksSwapBounds` | core/player/index.ts:218-219 | the backward range is the forward range swapped |
| `Player.EffectiveFrames` | core/player/index.ts:221-227 | a positive `endFrame` above `startFrame` counts `endFrame - startFrame` frames; an `endFrame <= 0` with a positive `startFrame` counts `frames - startFrame`; every other case counts the whole scene; so the count is positive unless `endFrame <= 0` and `startFrame` is at or past the scene's end |
| `Player.Duration` | core/player/index.ts:229 | the duration times the frame rate is the frame count times 1000, and it has the frame count's sign |
| `Player.LoopCount` | core/player/index.ts:230 | the loop count is finite exactly when the option is a positive number, and then it is that number; `true`, `false` and non-positive numbers loop forever |
| `Player.FillRule` | core/player/index.ts:231 | fill rule 1 exactly for `backwards`, 0 exactly for `forwards` |
| `Player.Configure` | core/player/index.ts:210-231 | the animator's range is `Bounds` of the frame options and its duration lasts `EffectiveFrames` frames at the scene's rate, so without frame options it runs the whole scene, from frame 0 up to the last index or back down, over `frames / fps` seconds; the duration is positive unless `endFrame <= 0` and `startFrame` is at or past the end; the run is finite exactly for a positive numeric `loop`, and then has that many passes; fill rule 1 exactly for `backwards` and 0 exactly for `forwards`; every other field of the animator, including the run state, start time, fraction and delay mode, is untouched |
| `Player.OnUpdate` | core/player/index.ts:233-247 | the frame becomes the floor of the value; when it was already that frame nothing happens; otherwise the progress is `(frame + 1) / frames * 100` for the frame count captured at start, and exactly one `drawFrame` of the new frame is issued followed by one `process` event; before any start nothing happens |
| `Player.Deliver` | core/player/index.ts:233-249 | after a batch of callbacks the frame is the floor of the last animated value, and only the frame and progress change; the `end` handler runs exactly when `onEnd` fired and `$on('end')` hooked it |
| `Player.On` | core/player/index.ts:197-205 | registering for `end` hooks the animator's `onEnd`, and throws after `destroy`; other events change nothing modelled |
| `Player.StartAnimation` | core/player/index.ts:210-250 | the animator is configured exactly as `Configure` derives it and started from `RestartFrame`: its start time is `now` for frame 0 and otherwise lies back from `now` by that frame's share of the duration, and its running state, fraction and worker are those the first tick at `firstTick` computes; the frame is the floor of the first animated value, and the progress is kept when that frame is `RestartFrame` and is otherwise `(frame + 1) / frames * 100`; the frame mapping for the mounted scene is installed; only animator callbacks take effect, and the scene, frame counts, options and hooks are unchanged |
| `Player.Start` | core/player/index.ts:136-143 | without a scene it throws and changes nothing; after `destroy` it throws; otherwise it clears first, emits `start` last, and leaves the player launched as `StartAnimation` states: animator configured by `Configure` and started from `RestartFrame` with the back-projected start time, fraction and running state those of the first tick, frame at the floor of the first animated value, progress recomputed when that frame moved, frame mapping installed, everything else unchanged |
| `Player.Resume` | core/player/index.ts:145-151 | without a scene it throws; after `destroy` it throws once the restart-at-last-frame reset is done; otherwise it emits `resume` last, never clears the surface, and leaves the player launched exactly as `Start` does: animator configured by `Configure` and started from `RestartFrame` with the back-projected start time, fraction and running state those of the first tick, frame at the floor of the first animated value, progress recomputed when that frame moved, everything else unchanged |
| `Player.LandingFrame` | core/player/index.ts:210-250 | for a non-empty range, a positive duration, at least one pass, and a starting frame whose share of the range lies strictly between -1 and 1, a start or resume whose first tick is at its own instant lands on the start of the animator's range plus the frame it starts from, which is `startFrame` when it was on the last frame |
| `Player.RestartFromLastFrame` | core/player/index.ts:214-216 | forwards, without frame options, with at least one pass and the first tick at the instant of the start, starting on the last frame replays from frame 0 |
| `Player.RestartDoublesStartFrame` | core/player/index.ts:214-219 | forwards, with `startFrame` positive, `endFrame` 0, `2 * startFrame` below the last frame index, at least one pass and the first tick at the instant of the start, starting on the last frame lands at twice `startFrame`, not at `startFrame` |
| `Player.PauseThenResumeKeepsFrame` | core/player/index.ts:145-156 | forwards over the whole scene with at least one pass, pausing on a frame below the last one and resuming with the first tick at that instant stays on the paused frame |
| `Player.ReverseResumeOvershoots` | core/player/index.ts:214-219 | without frame options and with at least one pass, resuming a backward play from a frame strictly inside the scene, with the first tick at that instant, lands at `totalFramesCount + currentFrame`, past the last frame |
| `Player.ResumeWithStartFrameJumps` | core/player/index.ts:214-219 | forwards, with `startFrame` positive, `endFrame` 0, at least one pass, and `startFrame + currentFrame` below the last frame index, a resume whose first tick is at its own instant lands `startFrame` frames ahead of where it paused |
| `Player.Pause` | core/player/index.ts:153-156 | the animator is stopped as `Animator.Stop` does, which releases its worker, nothing else changes, and `pause` is emitted; after `destroy` the animator is untouched and `pause` is still emitted |
| `Player.Stop` | core/player/index.ts:158-163 | the frame becomes 0 and the animator is stopped as `Animator.Stop` does; frame 0 is drawn and `stop` emitted; nothing else changes; after `destroy` it throws after the frame is reset, with the animator untouched |
| `Player.Clear` | core/player/index.ts:165-169 | the animator is stopped as `Animator.Stop` does and nothing else changes; the surface is cleared before `clear` is emitted; after `destroy` it throws and changes nothing |
| `Player.Destroy` | core/player/index.ts:171-177 | the first call stops the animator as `Animator.Stop` does, clears the surface once, drops the scene and marks the player destroyed, and changes nothing else; a second call throws and changes nothing |
| `Player.DestroyedPlayerRefuses` | core/player/index.ts:136-139 | after `destroy`: `start` throws for want of a scene; mounting a new scene rejects; starting that scene throws; destroying again throws |
| `Player.Tick` | core/player/index.ts:233-249 | a tick of a stopped animator changes nothing and has no effects |
| `Player.HaltedIsSilent` | core/player/index.ts:153-169 | after `pause`, `stop` or `clear` a tick changes nothing: no frame is drawn and neither `process` nor `end` is emitted |
| `Player.TickFrame` | core/player/index.ts:233-247 | for a tick at or after the start time, with a positive duration and whole range ends, the frame lies within the animator's range; the tick that ends the run leaves the frame on the end the fill rule names; the `end` handler runs exactly when the run ended and it is hooked |
| `Parser.Create` | core/parser.ts:16-24 | a parser always holds a worker: the stand-in exactly when workers are disabled, otherwise a live background worker |
| `Parser.Do` | core/parser.ts:29-63 | a 1.x header is refused before anything else; a short buffer throws a range error and missing data throws "not found"; a missing worker throws exactly when the input is otherwise acceptable; otherwise a promise exists; it resolves only with what the worker posted and rejects only on the stand-in, with the failing stage |
| `Parser.Header` | core/parser.ts:33 | missing data gives an empty header; a buffer shorter than four octets throws a range error; otherwise the header is the first four octets |
| `Parser.Dispatch` | core/parser.ts:47-62 | the promise resolves with the decoded scene exactly when the pipeline succeeds on the stand-in or on a live worker; it rejects with the failing stage only on the stand-in; it stays pending on a worker that is terminated or whose pipeline fails |
| `Parser.LegacyAlwaysRefused` | core/parser.ts:33-37 | input beginning 80, 75, 3, 4 is refused as unsupported, whatever follows |
| `Parser.StandInMatchesWorker` | core/parser.ts:47-62 | the stand-in and a live worker resolve with the same scene when decoding succeeds; on failure the stand-in rejects and the worker's promise stays pending |
| `Parser.Destroy` | core/parser.ts:65-69 | a real worker is terminated; the stand-in has no `terminate` and is left as it is; with no worker it throws |
| `Parser.DestroyIdempotent` | core/parser.ts:65-69 | destroying twice has the effect of destroying once |
| `DecodeWorker.Latin1` | core/parser.worker/index.ts:36 | one character per octet, whose code is that octet |
| `DecodeWorker.Btoa` | core/parser.worker/index.ts:38 | the Base64 text decodes back to the string's octets, and no other text decodes to them, so it is the canonical encoding of section 4 of RFC 4648 |
| `DecodeWorker.EncodeImages` | core/parser.worker/index.ts:31-39 | the output has exactly the input's keys, and each value is the RFC 4648 encoding of that key's bytes and decodes back to them |
| `DecodeWorker.TransformImages` | core/parser.worker/index.ts:33-39 | the loop gives the same per-key transform whatever order it visits the keys in: exactly the input's keys, each mapped to the RFC 4648 encoding of its bytes |
| `DecodeWorker.OnMessage` | core/parser.worker/index.ts:28-43 | a failing inflate or decode ends the request with that stage's fault, and the request succeeds when both succeed; a result carries the decoded frame count and rate, and images with the movie's keys, each the RFC 4648 encoding of the movie's bytes for that key |
| `DecodeWorker.Posted` | core/parser.worker/index.ts:41-42 | a request posts at most one scene, and exactly one when every stage succeeds |
| `DecodeWorker.MockPostMessage` | core/parser.worker/index.ts:20-22 | the stand-in forwards a posted scene only when a callback is set |
| `Base64.Encode` | core/parser.worker/index.ts:38 | the text is four characters per started group of three octets |
| `Base64.EncodeAlphabet` | core/parser.worker/index.ts:38 | every character of the text is a letter of the Base64 alphabet or the pad |
| `Base64.DecodeEncode` | core/parser.worker/index.ts:36-38 | decoding the encoding of any octet sequence gives that sequence back |
| `Base64.EncodeDecode` | core/parser.worker/index.ts:38 | the decoder accepts only canonical text: any text that decodes is the encoding of what it decodes to, since non-zero pad bits are refused as section 3.5 of RFC 4648 allows |

## Left out

- The tick source is left out: `requestAnimationFrame`, the timer worker built from a Blob URL, and `performance.now()`. Each clock reading is a parameter and each tick an explicit call. The `worker` flag records only whether a timer worker is held.
- The `IntersectionObserver` gating in `set`, the canvas checks in the constructor, and the DOM writes of `_setSize` are browser plumbing. They are left out except for the recorded `Resize` effect.
- The renderer, `renderer.ts`, is not part of this model. `prepare`, `clear` and `drawFrame` are recorded as effects, and the promise `prepare` returns is not modelled.
- Zlib inflate and the protobuf decoder are opaque, possibly failing functions in `Codec`. The `btoa` polyfill and `u8aToString` are not part of this model: they are specified by RFC 4648 section 4 and by one character per octet.
- Worker construction and the `eval` of the inlined worker source are left out. The same goes for the handler reassignment of `$on` beyond routing `onEnd`, and for any use of `cacheFrames`, which is only stored.
- Two concurrent `do` calls overwrite each other's `onmessage`; that is left out. The model answers one request at a time.
- A `start` on a running player leaves the old tick chain scheduled alongside the new one, which doubles the ticks; that is left out.
- IEEE 754 rounding is left out. Arithmetic is exact over `real`, and `parseFloat(x.toString())` is taken to be the identity.
- Every scene is assumed to have at least one frame and a positive frame rate (`Video.FrameCount`, `Video.Rate`). The decoder's output is not checked for these.
- Animator.Tick: a tick on a running animator with zero duration, before the end test is reached, divides 0 by 0 and produces NaN. Its precondition `TickDefined` excludes that case.
- Animator.Launch: resuming from a non-zero value over an empty range divides by zero. Its precondition `BackProjectionDefined` excludes that case, and so does `Animator.Start`'s.
- Animator.InfiniteNeverEnds: stated only for a positive duration. With an infinite loop count, a zero duration gives the NaN above and a negative one ends at once (`Animator.Reached`).
- Player.Start: excludes, through `StartDefined`, the configurations whose first tick or back-projection would compute NaN or an infinity. `Player.Resume` and `Player.StartAnimation` do the same.
- Event handlers are inert: the model does not run them. In the source a `process` handler runs inside `onUpdate`. If it calls `pause` or `stop`, `_isRunning` is cleared, and the check at core/player/animator.ts:107 then fires `onEnd`, so `end` is emitted although the run has not ended. Re-entrant handlers are left out (`Player.Notify`, `Player.Deliver`).
- `startFrame` and `endFrame` are integers (`Player.Options`, `Player.State`). The source accepts any JavaScript number, so fractional, infinite or NaN frame options are left out.
- Player.TickFrame: stated only for a tick at or after the start time, with a positive duration and whole range ends. A tick before the start time, which a reverse resume produces, can leave the frame outside the range (`Player.ReverseResumeOvershoots`).
- Player.Tick: carries `Animator.TickDefined` as its precondition.

=== FILE: animator.dfy ===
/** The `Animator` of core/player/animator.ts: a clock that turns elapsed
    wall-clock time into a fraction of a scalar range. Each call of the
    source's tick source (`requestAnimationFrame` or the timer worker) is an
    explicit `Tick(s, now)` here, `now` being the clock reading it takes; the
    callbacks a call fires are returned, in order, as a list of signals. */
module Animator {

  /** A loop count as the source holds it: a number of passes, or `Infinity`. */
  datatype Loop = Finite(count: real) | Infinite

  /** One callback or scheduling action: `onStart`, `onUpdate(value)`, `onEnd`,
      and the request for the next tick. */
  datatype Signal = Started | Updated(value: real) | Ended | Scheduled

  datatype State = State(
    // configuration, written by the player before every start
    startValue: real,
    endValue: real,
    duration: real,
    loop: Loop,
    fillRule: int,
    noExecutionDelay: bool,
    // run state
    running: bool,
    startTime: real,
    fraction: real,
    worker: bool)  // a timer worker is held

  datatype Step = Step(state: State, signals: seq<Signal>)

  /** A freshly constructed animator. */
  const Initial: State := State(0.0, 0.0, 0.0, Finite(1.0), 0, false, false, 0.0, 0.0, false)

  predicate Between(v: real, a: real, b: real) {
    (a <= v <= b) || (b <= v <= a)
  }

  function Abs(x: real): real {
    if x < 0.0 then -x else x
  }

  /** `animatedValue`: the point `fraction` of the way from `startValue` to `endValue`. */
  function AnimatedValue(s: State): (v: real)
    ensures s.fraction == 0.0 ==> v == s.startValue
    ensures s.fraction == 1.0 ==> v == s.endValue
    ensures 0.0 <= s.fraction <= 1.0 ==> Between(v, s.startValue, s.endValue)
  {
    var span := s.endValue - s.startValue;
    ScaleWithin(span, s.fraction);
    span * s.fraction + s.startValue
  }

  /** A fraction in [0, 1] of a signed span stays between 0 and the span. */
  lemma ScaleWithin(span: real, f: real)
    ensures 0.0 <= f <= 1.0 ==> Between(span * f, 0.0, span)
  {
    if 0.0 <= f <= 1.0 {
      assert span - span * f == span * (1.0 - f);
      if span >= 0.0 {
        assert span * (1.0 - f) >= 0.0;
      } else {
        assert span * (1.0 - f) <= 0.0;
      }
    }
  }

  predicate IsWhole(x: real) {
    x.Floor as real == x
  }

  /** `x` rounded toward zero. */
  function Trunc(x: real): (t: int)
    ensures 0.0 <= x ==> 0 <= t && t as real <= x < t as real + 1.0
    ensures x <= 0.0 ==> t <= 0 && t as real - 1.0 < x <= t as real
  {
    if x >= 0.0 then x.Floor else -((-x).Floor)
  }

  /** JavaScript's `%` on numbers: the remainder of the division truncated toward
      zero, which takes the sign of the dividend (unlike a Euclidean modulo). */
  function Rem(a: real, b: real): (r: real)
    requires b != 0.0
    ensures 0.0 <= a ==> 0.0 <= r
    ensures a <= 0.0 ==> r <= 0.0
    ensures Abs(r) < Abs(b)
    ensures IsWhole((a - r) / b)
  {
    RemProperties(a, b);
    a - b * Trunc(a / b) as real
  }

  lemma RemProperties(a: real, b: real)
    requires b != 0.0
    ensures var r := a - b * Trunc(a / b) as real;
      && (0.0 <= a ==> 0.0 <= r)
      && (a <= 0.0 ==> r <= 0.0)
      && Abs(r) < Abs(b)
      && IsWhole((a - r) / b)
  {
    var q := a / b;
    var t := Trunc(q);
    var r := a - b * t as real;
    assert a == b * q;
    RemCore(a, b, q, t);
    var x := (a - r) / b;
    assert x == t as real;
    assert IsWhole(x);
    assert t == Trunc(a / b);
    assert r == a - b * Trunc(a / b) as real;
    assert IsWhole((a - (a - b * Trunc(a / b) as real)) / b);
  }

  /** The remainder facts, with the quotient `q` and its truncation `t` as plain unknowns. */
  lemma RemCore(a: real, b: real, q: real, t: int)
    requires b != 0.0 && a == b * q
    requires 0.0 <= q ==> 0 <= t && t as real <= q < t as real + 1.0
    requires q <= 0.0 ==> t <= 0 && t as real - 1.0 < q <= t as real
    ensures var r := a - b * t as real;
      && (0.0 <= a ==> 0.0 <= r)
      && (a <= 0.0 ==> r <= 0.0)
      && Abs(r) < Abs(b)
      && (a - r) / b == t as real
  {
    var u := q - t as real;
    var r := a - b * t as real;
    assert r == b * u;
    assert a - r == b * t as real;
    assert (a - r) / b == t as real;
    ProductBelow(b, u);
  }

  /** A factor strictly between -1 and 1 shrinks the magnitude; the product's sign is the signs' product. */
  lemma ProductBelow(b: real, u: real)
    requires b != 0.0 && -1.0 < u < 1.0
    ensures Abs(b * u) < Abs(b)
    ensures (b > 0.0 && u >= 0.0) || (b < 0.0 && u <= 0.0) ==> b * u >= 0.0
    ensures (b > 0.0 && u <= 0.0) || (b < 0.0 && u >= 0.0) ==> b * u <= 0.0
  {
    if b > 0.0 {
      assert b - b * u == b * (1.0 - u);
      assert b + b * u == b * (1.0 + u);
      assert b * (1.0 - u) > 0.0 && b * (1.0 + u) > 0.0;
    } else {
      assert -b - b * u == -b * (1.0 + u);
      assert -b + b * u == -b * (1.0 - u);
      assert -b * (1.0 + u) > 0.0 && -b * (1.0 - u) > 0.0;
    }
  }

  /** The end-of-run test `deltaTime >= duration * loop`. With `loop == Infinity` the product is,
      in IEEE 754 arithmetic, +Infinity for a positive duration (never reached), NaN for a zero
      duration (the comparison is false) and -Infinity for a negative one (always reached). */
  predicate Reached(elapsed: real, duration: real, loop: Loop) {
    match loop
    case Finite(n) => elapsed >= duration * n
    case Infinite => duration < 0.0
  }

  /** The tick computes a number: it does not divide the remainder by a zero duration. */
  predicate TickDefined(s: State, now: real) {
    !s.running || s.duration != 0.0 || Reached(now - s.startTime, s.duration, s.loop)
  }

  /** The configuration the player writes before a start, which the animator never changes. */
  predicate SameConfig(s: State, t: State) {
    && t.startValue == s.startValue && t.endValue == s.endValue
    && t.duration == s.duration && t.loop == s.loop && t.fillRule == s.fillRule
    && t.noExecutionDelay == s.noExecutionDelay
  }

  /** The configuration and the start time, which a tick never changes. */
  predicate SameRun(s: State, t: State) {
    SameConfig(s, t) && t.startTime == s.startTime
  }

  /** `_doDeltaTime`: the fraction for `elapsed` milliseconds, then `onUpdate`, and `onEnd` once the run is over. */
  function DeltaTime(s: State, elapsed: real): (r: Step)
    requires s.running && (s.duration != 0.0 || Reached(elapsed, s.duration, s.loop))
    ensures SameRun(s, r.state)
    ensures r.state.running <==> !Reached(elapsed, s.duration, s.loop)
    ensures r.state.running ==>
      && r.state.fraction == Rem(elapsed, s.duration) / s.duration
      && r.state.worker == s.worker
      && r.signals == [Updated(AnimatedValue(r.state))]
    ensures !r.state.running ==>
      && r.state.fraction == (if s.fillRule == 1 then 0.0 else 1.0)
      && !r.state.worker
      && r.signals == [Updated(AnimatedValue(r.state)), Ended]
  {
    if Reached(elapsed, s.duration, s.loop) then
      var t := s.(fraction := if s.fillRule == 1 then 0.0 else 1.0, running := false, worker := false);
      Step(t, [Updated(AnimatedValue(t)), Ended])
    else
      var t := s.(fraction := Rem(elapsed, s.duration) / s.duration);
      Step(t, [Updated(AnimatedValue(t))])
  }

  /** A non-negative elapsed time over a positive duration wraps into a fraction in [0, 1). */
  lemma FractionInRange(e: real, d: real)
    requires d != 0.0
    ensures 0.0 <= e && 0.0 < d ==> 0.0 <= Rem(e, d) / d < 1.0
  {
    if 0.0 <= e && 0.0 < d {
      var r := Rem(e, d);
      assert 0.0 <= r < d;
      assert r / d * d == r;
      assert (r / d - 1.0) * d == r - d;
      SignOfProduct(r / d, d);
      SignOfProduct(r / d - 1.0, d);
    }
  }

  /** `_doFrame`: nothing unless running; otherwise one `_doDeltaTime` and, if still running, the next tick is scheduled. */
  function Tick(s: State, now: real): (r: Step)
    requires TickDefined(s, now)
    ensures SameRun(s, r.state)
    ensures !s.running ==> r == Step(s, [])
    ensures s.running ==>
      && |r.signals| == 2
      && r.signals[0] == Updated(AnimatedValue(r.state))
      && (r.signals[1] == Ended <==> !r.state.running)
      && (r.signals[1] == Scheduled <==> r.state.running)
      && (r.state.running <==> !Reached(now - s.startTime, s.duration, s.loop))
    ensures s.running && !r.state.running ==>
      && !r.state.worker
      && r.state.fraction == (if s.fillRule == 1 then 0.0 else 1.0)
      && AnimatedValue(r.state) == (if s.fillRule == 1 then s.startValue else s.endValue)
    ensures s.running && r.state.running ==>
      && r.state.worker == s.worker
      && r.state.fraction == Rem(now - s.startTime, s.duration) / s.duration
      && (0.0 <= now - s.startTime && 0.0 < s.duration ==> 0.0 <= r.state.fraction < 1.0)
  {
    if !s.running then Step(s, [])
    else
      var d := DeltaTime(s, now - s.startTime);
      if d.state.running then
        FractionInRange(now - s.startTime, s.duration);
        Step(d.state, d.signals + [Scheduled])
      else d
  }

  /** The back-projection divides by a non-zero range. */
  predicate BackProjectionDefined(s: State, currentValue: real) {
    currentValue != 0.0 ==> s.endValue != s.startValue
  }

  /** `startTime` lies back from `now` by the share of the duration that `currentValue` stands
      for in the range; with no value to resume from it is `now` itself. */
  predicate BackProjected(s: State, now: real, currentValue: real, startTime: real) {
    && (currentValue == 0.0 ==> startTime == now)
    && (currentValue != 0.0 ==> (now - startTime) * (s.endValue - s.startValue) == currentValue * s.duration)
  }

  /** What the first tick of a start leaves, for the configuration `s` it started from: while
      the run goes on, the fraction is the truncated remainder of the elapsed time over the
      duration and the worker the start took is kept; once the run has ended, the fraction is
      the end the fill rule names and the worker is released. */
  predicate FirstTicked(s: State, firstTick: real, t: State) {
    && (t.running ==>
         && s.duration != 0.0
         && t.fraction == Rem(firstTick - t.startTime, s.duration) / s.duration
         && t.worker == (s.worker || s.noExecutionDelay))
    && (!t.running ==> t.fraction == (if s.fillRule == 1 then 0.0 else 1.0) && !t.worker)
  }

  /** `doStart` up to `onStart`: the start time is moved back by the share of the duration that
      `currentValue` stands for, so that the run continues instead of restarting. */
  function Launch(s: State, now: real, currentValue: real): (r: Step)
    requires BackProjectionDefined(s, currentValue)
    ensures r.signals == [Started]
    ensures r.state.running && r.state.fraction == 0.0
    ensures r.state.worker == (s.worker || s.noExecutionDelay)
    ensures currentValue == 0.0 ==> r.state.startTime == now
    ensures currentValue != 0.0 ==>
      (now - r.state.startTime) * (s.endValue - s.startValue) == currentValue * s.duration
    ensures r.state.(running := s.running, startTime := s.startTime, fraction := s.fraction, worker := s.worker) == s
  {
    var back := if currentValue != 0.0 then currentValue / (s.endValue - s.startValue) * s.duration else 0.0;
    Step(s.(running := true, startTime := now - back, fraction := 0.0, worker := s.worker || s.noExecutionDelay), [Started])
  }

  /** `start(currentValue)`: `doStart` reads the clock at `now`, fires `onStart`, then runs the first frame, which reads it again at `firstTick`. */
  function Start(s: State, now: real, firstTick: real, currentValue: real): (r: Step)
    requires BackProjectionDefined(s, currentValue)
    requires TickDefined(Launch(s, now, currentValue).state, firstTick)
    ensures |r.signals| == 3 && r.signals[0] == Started && r.signals[1] == Updated(AnimatedValue(r.state))
    ensures r.signals[2] == (if r.state.running then Scheduled else Ended)
    ensures SameConfig(s, r.state)
    ensures BackProjected(s, now, currentValue, r.state.startTime)
    ensures FirstTicked(s, firstTick, r.state)
    ensures r.state.running <==> !Reached(firstTick - r.state.startTime, s.duration, s.loop)
  {
    var l := Launch(s, now, currentValue);
    var t := Tick(l.state, firstTick);
    Step(t.state, l.signals + t.signals)
  }

  /** `stop`: the run is over and the timer worker released. */
  function Stop(s: State): (r: State)
    ensures !r.running && !r.worker
    ensures r.(running := s.running, worker := s.worker) == s
  {
    s.(running := false, worker := false)
  }

  /** Stopping twice is stopping once. */
  lemma StopIdempotent(s: State)
    ensures Stop(Stop(s)) == Stop(s)
  {
  }

  /** A stopped animator ignores ticks: no state change and no callbacks. */
  lemma StoppedIsSilent(s: State, now: real)
    ensures Tick(Stop(s), now) == Step(Stop(s), [])
  {
  }

  /** At least one full pass before the run can end. */
  predicate AtLeastOnePass(loop: Loop) {
    loop.Infinite? || loop.count >= 1.0
  }

  /** With an infinite loop count and a positive duration the run never ends, however late the tick. */
  lemma InfiniteNeverEnds(s: State, now: real)
    requires s.running && s.loop.Infinite? && s.duration > 0.0
    ensures Tick(s, now).state.running
    ensures Ended !in Tick(s, now).signals
  {
    var r := Tick(s, now);
    assert r.signals[1] == Scheduled;
    assert r.signals == [r.signals[0], r.signals[1]];
  }

  /** A run of `count` passes ends exactly at `count` durations: while it runs, fewer than
      `count` whole passes have elapsed, and the tick that ends it comes at or after the last one. */
  lemma PassesBeforeEnd(s: State, now: real)
    requires s.running && s.loop.Finite? && s.duration > 0.0
    ensures var r := Tick(s, now);
      r.state.running <==> (now - s.startTime) / s.duration < s.loop.count
  {
    QuotientCompare(now - s.startTime, s.duration, s.loop.count);
  }

  /** Comparing with `d * n` is comparing the quotient by `d` with `n`, for positive `d`. */
  lemma QuotientCompare(e: real, d: real, n: real)
    requires d > 0.0
    ensures e >= d * n <==> e / d >= n
  {
    assert (e / d - n) * d == e - d * n;
    SignOfProduct(e / d - n, d);
  }

  /** Resuming lands where it should only when the range starts at 0: starting from
      `currentValue` and ticking at the same instant gives `startValue + currentValue`,
      because the back-projection scales `currentValue` rather than `currentValue - startValue`.
      On a descending range the share is negative and the start time moves into the future. */
  lemma ResumeLandsOnOffset(s: State, now: real, currentValue: real)
    requires s.endValue != s.startValue && s.duration > 0.0 && AtLeastOnePass(s.loop)
    requires -1.0 < currentValue / (s.endValue - s.startValue) < 1.0
    ensures BackProjectionDefined(s, currentValue)
    ensures TickDefined(Launch(s, now, currentValue).state, now)
    ensures var r := Start(s, now, now, currentValue);
      r.state.running && AnimatedValue(r.state) == s.startValue + currentValue
  {
    var span := s.endValue - s.startValue;
    var q := currentValue / span;
    var l := Launch(s, now, currentValue).state;
    BackProjectedShare(now, l.startTime, span, currentValue, s.duration);
    FirstTickAtShare(l, now, q);
    var t := Tick(l, now).state;
    ValueAtShare(t, currentValue);
    var r := Start(s, now, now, currentValue);
    assert r.state == t;
  }

  /** Moving the start time back by `v / span * d` puts `now` a share `v / span` of `d` after it. */
  lemma BackProjectedShare(now: real, start: real, span: real, v: real, d: real)
    requires span != 0.0
    requires v == 0.0 ==> start == now
    requires v != 0.0 ==> (now - start) * span == v * d
    ensures now - start == d * (v / span)
  {
    if v != 0.0 {
      var x := now - start;
      assert x == x * span / span;
      assert x * span / span == v * d / span;
      assert v * d / span == d * (v / span);
    }
  }

  /** At the fraction `v / span` of a range of width `span` the value is `startValue + v`. */
  lemma ValueAtShare(t: State, v: real)
    requires t.endValue != t.startValue && t.fraction == v / (t.endValue - t.startValue)
    ensures AnimatedValue(t) == t.startValue + v
  {
    ScaleBack(v, t.endValue - t.startValue);
  }

  /** A tick that comes a share `q` of one duration after the start time, `|q| < 1`, leaves
      the run going with the fraction `q`. */
  lemma FirstTickAtShare(l: State, now: real, q: real)
    requires l.running && l.duration > 0.0 && AtLeastOnePass(l.loop)
    requires -1.0 < q < 1.0 && now - l.startTime == l.duration * q
    ensures TickDefined(l, now)
    ensures Tick(l, now).state.running && Tick(l, now).state.fraction == q
  {
    var e := now - l.startTime;
    ProductBelow(l.duration, q);
    WithinOnePass(e, l.duration, l.loop);
    RemOfSmall(e, l.duration);
    ShareOf(e, l.duration, q);
  }

  lemma ScaleBack(v: real, span: real)
    requires span != 0.0
    ensures span * (v / span) == v
  {
  }

  /** Less than one duration from the start time, in either direction, a run of at least one pass has not ended. */
  lemma WithinOnePass(e: real, d: real, loop: Loop)
    requires d > 0.0 && Abs(e) < d && AtLeastOnePass(loop)
    ensures !Reached(e, d, loop)
  {
    if loop.Finite? {
      var n := loop.count;
      assert d * n - d == d * (n - 1.0);
      assert d * (n - 1.0) >= 0.0;
    }
  }

  lemma ShareOf(e: real, d: real, q: real)
    requires d != 0.0 && e == d * q
    ensures e / d == q
  {
  }

  /** The quotient of a dividend smaller in magnitude than a positive divisor lies strictly between -1 and 1. */
  lemma ShareBelowOne(a: real, b: real)
    requires 0.0 < b && Abs(a) < b
    ensures -1.0 < a / b < 1.0
  {
    var q := a / b;
    assert (q - 1.0) * b == a - b;
    assert (q + 1.0) * b == a + b;
    SignOfProduct(q - 1.0, b);
    SignOfProduct(q + 1.0, b);
  }

  lemma SignOfProduct(x: real, b: real)
    requires b > 0.0
    ensures x * b < 0.0 ==> x < 0.0
    ensures x * b > 0.0 ==> x > 0.0
    ensures x * b == 0.0 ==> x == 0.0
  {
  }

  /** A dividend smaller in magnitude than a positive divisor is its own remainder, whatever its sign. */
  lemma RemOfSmall(a: real, b: real)
    requires 0.0 < b && Abs(a) < b
    ensures Rem(a, b) == a
  {
    ShareBelowOne(a, b);
    assert Trunc(a / b) == 0;
  }

  /** Several ticks in a row, their signals concatenated. */
  function Run(s: State, times: seq<real>): (r: Step)
    requires forall i :: 0 <= i < |times| ==> TickDefined(s, times[i])
    ensures SameRun(s, r.state)
    ensures r.state.running ==> s.running
    decreases |times|
  {
    if |times| == 0 then Step(s, [])
    else
      var first := Tick(s, times[0]);
      var rest := Run(first.state, times[1..]);
      Step(rest.state, first.signals + rest.signals)
  }

  /** `onEnd` fires at most once over any sequence of ticks, exactly when the run ends, and nothing follows it. */
  lemma {:induction false} EndedIsLast(s: State, times: seq<real>)
    requires forall i :: 0 <= i < |times| ==> TickDefined(s, times[i])
    ensures var sig := Run(s, times).signals;
      forall i :: 0 <= i < |sig| && sig[i] == Ended ==> i == |sig| - 1
    ensures Ended in Run(s, times).signals <==> s.running && !Run(s, times).state.running
    ensures !s.running ==> Run(s, times).signals == []
    decreases |times|
  {
    if |times| > 0 {
      var first := Tick(s, times[0]);
      var rest := Run(first.state, times[1..]);
      EndedIsLast(first.state, times[1..]);
      if s.running && !first.state.running {
        assert rest.signals == [];
        assert first.signals + [] == first.signals;
      }
    }
  }

  /** A single pass from 0 to 10 over one second: halfway through the value is 5, and the tick
      at one second ends the run on 10. */
  lemma OneSecondToTen(now: real)
    ensures var l := Launch(State(0.0, 10.0, 1000.0, Finite(1.0), 0, false, false, 0.0, 0.0, false), now, 0.0).state;
      && Tick(l, now + 500.0).state.running
      && AnimatedValue(Tick(l, now + 500.0).state) == 5.0
      && !Tick(l, now + 1000.0).state.running
      && AnimatedValue(Tick(l, now + 1000.0).state) == 10.0
  {
    var l := Launch(State(0.0, 10.0, 1000.0, Finite(1.0), 0, false, false, 0.0, 0.0, false), now, 0.0).state;
    assert l.startTime == now;
    RemOfSmall(500.0, 1000.0);
  }
}

=== FILE: base64.dfy ===
/** The base 64 encoding of section 4 of RFC 4648: every three octets become
    four characters of a 64-letter alphabet, and a final group of one or two
    octets is padded with `=`. The decoder is the partner that the encoder's
    correctness is stated against. */
module Base64 {
  import opened Common

  /** The letter for a six-bit value, Table 1 of RFC 4648. */
  function Letter(i: int): (c: char)
    requires 0 <= i < 64
    ensures IsLetter(c)
  {
    if i < 26 then ('A' as int + i) as char
    else if i < 52 then ('a' as int + (i - 26)) as char
    else if i < 62 then ('0' as int + (i - 52)) as char
    else if i == 62 then '+'
    else '/'
  }

  /** The six-bit value a letter stands for; None for a character outside the alphabet. */
  function Value(c: char): (r: Option<int>)
    ensures r.Some? ==> 0 <= r.value < 64 && Letter(r.value) == c
  {
    if 'A' <= c <= 'Z' then Some(c as int - 'A' as int)
    else if 'a' <= c <= 'z' then Some(c as int - 'a' as int + 26)
    else if '0' <= c <= '9' then Some(c as int - '0' as int + 52)
    else if c == '+' then Some(62)
    else if c == '/' then Some(63)
    else None
  }

  predicate IsLetter(c: char) {
    ('A' <= c <= 'Z') || ('a' <= c <= 'z') || ('0' <= c <= '9') || c == '+' || c == '/'
  }

  const Pad: char := '='

  lemma ValueOfLetter(i: int)
    requires 0 <= i < 64
    ensures Value(Letter(i)) == Some(i)
  {
  }

  /** Four letters for three octets. */
  function Group(a: byte, b: byte, c: byte): seq<char>
  {
    [Letter(a / 4), Letter((a % 4) * 16 + b / 16), Letter((b % 16) * 4 + c / 64), Letter(c % 64)]
  }

  /** A final group of two octets: three letters and one pad. */
  function Group2(a: byte, b: byte): seq<char>
  {
    [Letter(a / 4), Letter((a % 4) * 16 + b / 16), Letter((b % 16) * 4), Pad]
  }

  /** A final group of one octet: two letters and two pads. */
  function Group1(a: byte): seq<char>
  {
    [Letter(a / 4), Letter((a % 4) * 16), Pad, Pad]
  }

  function Encode(bs: seq<byte>): (s: string)
    ensures |s| == 4 * ((|bs| + 2) / 3)
    decreases |bs|
  {
    if |bs| == 0 then []
    else if |bs| == 1 then Group1(bs[0])
    else if |bs| == 2 then Group2(bs[0], bs[1])
    else Group(bs[0], bs[1], bs[2]) + Encode(bs[3..])
  }

  /** Every character of an encoding is a letter of the alphabet or the pad. */
  lemma {:induction false} EncodeAlphabet(bs: seq<byte>)
    ensures forall i :: 0 <= i < |Encode(bs)| ==> IsLetter(Encode(bs)[i]) || Encode(bs)[i] == Pad
    decreases |bs|
  {
    if |bs| >= 3 {
      EncodeAlphabet(bs[3..]);
      var g, rest := Group(bs[0], bs[1], bs[2]), Encode(bs[3..]);
      assert Encode(bs) == g + rest;
      forall i | 0 <= i < |g + rest|
        ensures IsLetter((g + rest)[i]) || (g + rest)[i] == Pad
      {
        if i >= 4 {
          assert (g + rest)[i] == rest[i - 4];
        }
      }
    }
  }

  /** Decodes one group of four characters; `last` says whether padding is allowed in it.
      The bits a padded group leaves unused must be zero (section 3.5 of RFC 4648), so that
      every octet string has exactly one text that decodes to it. */
  function DecodeGroup(c0: char, c1: char, c2: char, c3: char, last: bool): (r: Option<seq<byte>>)
    ensures r.Some? ==> 1 <= |r.value| <= 3
    ensures r.Some? && |r.value| < 3 ==> last
  {
    if Value(c0).None? || Value(c1).None? then None
    else
      var i0, i1 := Value(c0).value, Value(c1).value;
      if last && c2 == Pad && c3 == Pad then
        if i1 % 16 != 0 then None
        else Some([i0 * 4 + i1 / 16])
      else if Value(c2).None? then None
      else
        var i2 := Value(c2).value;
        if last && c3 == Pad then
          if i2 % 4 != 0 then None
          else Some([i0 * 4 + i1 / 16, (i1 % 16) * 16 + i2 / 4])
        else if Value(c3).None? then None
        else
          var i3 := Value(c3).value;
          Some([i0 * 4 + i1 / 16, (i1 % 16) * 16 + i2 / 4, (i2 % 4) * 64 + i3])
  }

  function Decode(s: string): (r: Option<seq<byte>>)
    decreases |s|
  {
    if |s| == 0 then Some([])
    else if |s| < 4 then None
    else
      match DecodeGroup(s[0], s[1], s[2], s[3], |s| == 4)
      case None => None
      case Some(head) =>
        match Decode(s[4..])
        case None => None
        case Some(tail) => Some(head + tail)
  }

  lemma GroupRoundTrip(a: byte, b: byte, c: byte, last: bool)
    ensures var g := Group(a, b, c); DecodeGroup(g[0], g[1], g[2], g[3], last) == Some([a, b, c])
  {
    var i0, i1, i2, i3 := a / 4, (a % 4) * 16 + b / 16, (b % 16) * 4 + c / 64, c % 64;
    ValueOfLetter(i0);
    ValueOfLetter(i1);
    ValueOfLetter(i2);
    ValueOfLetter(i3);
    assert i1 / 16 == a % 4 && i1 % 16 == b / 16;
    assert i2 / 4 == b % 16 && i2 % 4 == c / 64;
  }

  lemma Group2RoundTrip(a: byte, b: byte)
    ensures var g := Group2(a, b); DecodeGroup(g[0], g[1], g[2], g[3], true) == Some([a, b])
  {
    var i0, i1, i2 := a / 4, (a % 4) * 16 + b / 16, (b % 16) * 4;
    ValueOfLetter(i0);
    ValueOfLetter(i1);
    ValueOfLetter(i2);
    assert i1 / 16 == a % 4 && i1 % 16 == b / 16;
    assert i2 / 4 == b % 16;
  }

  lemma Group1RoundTrip(a: byte)
    ensures var g := Group1(a); DecodeGroup(g[0], g[1], g[2], g[3], true) == Some([a])
  {
    var i0, i1 := a / 4, (a % 4) * 16;
    ValueOfLetter(i0);
    ValueOfLetter(i1);
    assert i1 / 16 == a % 4;
  }

  /** Decoding a leading group followed by more text. */
  lemma DecodeAppend(g: string, rest: string, head: seq<byte>, tail: seq<byte>)
    requires |g| == 4
    requires DecodeGroup(g[0], g[1], g[2], g[3], |rest| == 0) == Some(head)
    requires Decode(rest) == Some(tail)
    ensures Decode(g + rest) == Some(head + tail)
  {
    var s := g + rest;
    assert s[0] == g[0] && s[1] == g[1] && s[2] == g[2] && s[3] == g[3];
    assert s[4..] == rest;
  }

  lemma DecodeLastGroup1(a: byte)
    ensures Decode(Group1(a)) == Some([a])
  {
    Group1RoundTrip(a);
    DecodeAppend(Group1(a), [], [a], []);
    assert Group1(a) + [] == Group1(a) && [a] + [] == [a];
  }

  lemma DecodeLastGroup2(a: byte, b: byte)
    ensures Decode(Group2(a, b)) == Some([a, b])
  {
    Group2RoundTrip(a, b);
    DecodeAppend(Group2(a, b), [], [a, b], []);
    assert Group2(a, b) + [] == Group2(a, b) && [a, b] + [] == [a, b];
  }

  lemma DecodeFullGroup(a: byte, b: byte, c: byte, rest: string, tail: seq<byte>)
    requires Decode(rest) == Some(tail)
    ensures Decode(Group(a, b, c) + rest) == Some([a, b, c] + tail)
  {
    GroupRoundTrip(a, b, c, |rest| == 0);
    DecodeAppend(Group(a, b, c), rest, [a, b, c], tail);
  }

  lemma EncodeUnfold(bs: seq<byte>)
    requires |bs| >= 3
    ensures Encode(bs) == Group(bs[0], bs[1], bs[2]) + Encode(bs[3..])
  {
  }

  /** The last, partial group of one or two octets, or nothing at all. */
  lemma DecodeEncodeShort(bs: seq<byte>)
    requires |bs| <= 2
    ensures Decode(Encode(bs)) == Some(bs)
  {
    SplitShort(bs);
    if |bs| == 1 {
      DecodeLastGroup1(bs[0]);
    } else if |bs| == 2 {
      DecodeLastGroup2(bs[0], bs[1]);
    }
  }

  /** One full group in front of a tail that already round-trips. */
  lemma DecodeEncodeStep(bs: seq<byte>)
    requires |bs| >= 3 && Decode(Encode(bs[3..])) == Some(bs[3..])
    ensures Decode(Encode(bs)) == Some(bs)
  {
    EncodeUnfold(bs);
    DecodeFullGroup(bs[0], bs[1], bs[2], Encode(bs[3..]), bs[3..]);
    SplitGroup(bs);
  }

  lemma SplitGroup(bs: seq<byte>)
    requires |bs| >= 3
    ensures [bs[0], bs[1], bs[2]] + bs[3..] == bs
  {
  }

  lemma SplitShort(bs: seq<byte>)
    ensures |bs| == 1 ==> [bs[0]] == bs
    ensures |bs| == 2 ==> [bs[0], bs[1]] == bs
  {
  }

  /** Splitting `q * 4 + r` by 4, `q * 16 + r` by 16 and `q * 64 + r` by 64 gives back `q` and `r`. */
  lemma DivMod4(q: int, r: int)
    requires 0 <= r < 4
    ensures (q * 4 + r) / 4 == q && (q * 4 + r) % 4 == r
  {
  }

  lemma DivMod16(q: int, r: int)
    requires 0 <= r < 16
    ensures (q * 16 + r) / 16 == q && (q * 16 + r) % 16 == r
  {
  }

  lemma DivMod64(q: int, r: int)
    requires 0 <= r < 64
    ensures (q * 64 + r) / 64 == q && (q * 64 + r) % 64 == r
  {
  }

  /** Unpacking three octets packed from four six-bit values gives the values back. */
  lemma Unpack3(i0: int, i1: int, i2: int, i3: int, a: int, b: int, c: int)
    requires 0 <= i0 < 64 && 0 <= i1 < 64 && 0 <= i2 < 64 && 0 <= i3 < 64
    requires a == i0 * 4 + i1 / 16 && b == (i1 % 16) * 16 + i2 / 4 && c == (i2 % 4) * 64 + i3
    ensures a / 4 == i0 && (a % 4) * 16 + b / 16 == i1 && (b % 16) * 4 + c / 64 == i2 && c % 64 == i3
  {
    DivMod4(i0, i1 / 16);
    DivMod16(i1 % 16, i2 / 4);
    DivMod64(i2 % 4, i3);
  }

  /** Three octets packed from four six-bit values encode as those values' letters. */
  lemma GroupOfValues(i0: int, i1: int, i2: int, i3: int, a: byte, b: byte, c: byte)
    requires 0 <= i0 < 64 && 0 <= i1 < 64 && 0 <= i2 < 64 && 0 <= i3 < 64
    requires a == i0 * 4 + i1 / 16 && b == (i1 % 16) * 16 + i2 / 4 && c == (i2 % 4) * 64 + i3
    ensures Group(a, b, c) == [Letter(i0), Letter(i1), Letter(i2), Letter(i3)]
  {
    Unpack3(i0, i1, i2, i3, a, b, c);
  }

  /** Unpacking two octets packed from three six-bit values, the last with its two low bits clear. */
  lemma Unpack2(i0: int, i1: int, i2: int)
    requires 0 <= i0 < 64 && 0 <= i1 < 64 && 0 <= i2 < 64 && i2 % 4 == 0
    ensures var a, b := i0 * 4 + i1 / 16, (i1 % 16) * 16 + i2 / 4;
      a / 4 == i0 && (a % 4) * 16 + b / 16 == i1 && (b % 16) * 4 == i2
  {
    DivMod4(i0, i1 / 16);
    DivMod16(i1 % 16, i2 / 4);
  }

  /** Two octets packed from three six-bit values, the last with its two low bits clear. */
  lemma Group2OfValues(i0: int, i1: int, i2: int)
    requires 0 <= i0 < 64 && 0 <= i1 < 64 && 0 <= i2 < 64 && i2 % 4 == 0
    ensures Group2(i0 * 4 + i1 / 16, (i1 % 16) * 16 + i2 / 4) == [Letter(i0), Letter(i1), Letter(i2), Pad]
  {
    Unpack2(i0, i1, i2);
  }

  /** One octet packed from two six-bit values, the second with its four low bits clear. */
  lemma Group1OfValues(i0: int, i1: int)
    requires 0 <= i0 < 64 && 0 <= i1 < 64 && i1 % 16 == 0
    ensures Group1(i0 * 4 + i1 / 16) == [Letter(i0), Letter(i1), Pad, Pad]
  {
    DivMod4(i0, i1 / 16);
  }

  /** A group that decodes is the encoding of what it decodes to: of three octets, or of the
      one or two octets a padded last group holds. */
  lemma GroupOfDecoded(c0: char, c1: char, c2: char, c3: char, last: bool)
    requires DecodeGroup(c0, c1, c2, c3, last).Some?
    ensures var h := DecodeGroup(c0, c1, c2, c3, last).value;
      && (|h| == 3 ==> Group(h[0], h[1], h[2]) == [c0, c1, c2, c3])
      && (|h| == 2 ==> Group2(h[0], h[1]) == [c0, c1, c2, c3])
      && (|h| == 1 ==> Group1(h[0]) == [c0, c1, c2, c3])
  {
    if last && c2 == Pad && c3 == Pad {
      Decoded1(c0, c1, c2, c3);
    } else if last && c3 == Pad {
      Decoded2(c0, c1, c2, c3);
    } else {
      Decoded3(c0, c1, c2, c3, last);
    }
  }

  lemma Decoded1(c0: char, c1: char, c2: char, c3: char)
    requires c2 == Pad && c3 == Pad && DecodeGroup(c0, c1, c2, c3, true).Some?
    ensures var h := DecodeGroup(c0, c1, c2, c3, true).value; |h| == 1 && Group1(h[0]) == [c0, c1, c2, c3]
  {
    var i0, i1 := Value(c0).value, Value(c1).value;
    assert DecodeGroup(c0, c1, c2, c3, true).value == [i0 * 4 + i1 / 16];
    Group1OfValues(i0, i1);
  }

  lemma Decoded2(c0: char, c1: char, c2: char, c3: char)
    requires c2 != Pad && c3 == Pad && DecodeGroup(c0, c1, c2, c3, true).Some?
    ensures var h := DecodeGroup(c0, c1, c2, c3, true).value; |h| == 2 && Group2(h[0], h[1]) == [c0, c1, c2, c3]
  {
    var i0, i1, i2 := Value(c0).value, Value(c1).value, Value(c2).value;
    var h0, h1 := i0 * 4 + i1 / 16, (i1 % 16) * 16 + i2 / 4;
    var h := DecodeGroup(c0, c1, c2, c3, true).value;
    assert h == [h0, h1];
    Group2OfValues(i0, i1, i2);
    assert [Letter(i0), Letter(i1), Letter(i2), Pad] == [c0, c1, c2, c3];
    assert Group2(h[0], h[1]) == Group2(h0, h1);
  }

  lemma Decoded3(c0: char, c1: char, c2: char, c3: char, last: bool)
    requires !(last && c3 == Pad) && DecodeGroup(c0, c1, c2, c3, last).Some?
    ensures var h := DecodeGroup(c0, c1, c2, c3, last).value; |h| == 3 && Group(h[0], h[1], h[2]) == [c0, c1, c2, c3]
  {
    var i0, i1, i2, i3 := Value(c0).value, Value(c1).value, Value(c2).value, Value(c3).value;
    var h := DecodeGroup(c0, c1, c2, c3, last).value;
    assert h == [i0 * 4 + i1 / 16, (i1 % 16) * 16 + i2 / 4, (i2 % 4) * 64 + i3];
    GroupOfLetters(c0, c1, c2, c3, i0, i1, i2, i3, h);
  }

  /** Three octets packed from the values of four letters encode as those letters. */
  lemma GroupOfLetters(c0: char, c1: char, c2: char, c3: char, i0: int, i1: int, i2: int, i3: int, h: seq<byte>)
    requires Value(c0) == Some(i0) && Value(c1) == Some(i1) && Value(c2) == Some(i2) && Value(c3) == Some(i3)
    requires h == [i0 * 4 + i1 / 16, (i1 % 16) * 16 + i2 / 4, (i2 % 4) * 64 + i3]
    ensures Group(h[0], h[1], h[2]) == [c0, c1, c2, c3]
  {
    GroupOfValues(i0, i1, i2, i3, h[0], h[1], h[2]);
    assert Letter(i0) == c0 && Letter(i1) == c1 && Letter(i2) == c2 && Letter(i3) == c3;
  }

  /** The decoder accepts only canonical text: whatever decodes to `bs` is the encoding of `bs`. */
  lemma {:induction false} EncodeDecode(s: string)
    requires Decode(s).Some?
    ensures s == Encode(Decode(s).value)
    decreases |s|
  {
    if |s| > 0 {
      var head := DecodeGroup(s[0], s[1], s[2], s[3], |s| == 4).value;
      var tail := Decode(s[4..]).value;
      assert Decode(s).value == head + tail;
      EncodeDecode(s[4..]);
      GroupOfDecoded(s[0], s[1], s[2], s[3], |s| == 4);
      if |head| == 3 {
        EncodeOfFullGroup(s, head, tail);
      } else {
        assert s[4..] == [] && tail == [];
        EncodeOfLastGroup(s, head);
      }
    }
  }

  /** Text that opens with the encoding of three octets and goes on with the encoding of a tail. */
  lemma EncodeOfFullGroup(s: string, head: seq<byte>, tail: seq<byte>)
    requires |s| >= 4 && |head| == 3
    requires Group(head[0], head[1], head[2]) == [s[0], s[1], s[2], s[3]] && s[4..] == Encode(tail)
    ensures s == Encode(head + tail)
  {
    var bs := head + tail;
    assert bs[3..] == tail && bs[0] == head[0] && bs[1] == head[1] && bs[2] == head[2];
    EncodeUnfold(bs);
    assert s == [s[0], s[1], s[2], s[3]] + s[4..];
  }

  lemma FourChars(s: string)
    requires |s| == 4
    ensures s == [s[0], s[1], s[2], s[3]]
  {
  }

  /** Four characters that encode a last group of one or two octets. */
  lemma EncodeOfLastGroup(s: string, head: seq<byte>)
    requires |s| == 4 && 1 <= |head| <= 2
    requires |head| == 2 ==> Group2(head[0], head[1]) == [s[0], s[1], s[2], s[3]]
    requires |head| == 1 ==> Group1(head[0]) == [s[0], s[1], s[2], s[3]]
    ensures s == Encode(head + [])
  {
    assert head + [] == head;
    FourChars(s);
    if |head| == 1 {
      assert Encode(head) == Group1(head[0]);
    } else {
      assert Encode(head) == Group2(head[0], head[1]);
    }
  }

  /** Decoding undoes encoding, for every octet string. */
  lemma {:induction false} DecodeEncode(bs: seq<byte>)
    ensures Decode(Encode(bs)) == Some(bs)
    decreases |bs|
  {
    if |bs| <= 2 {
      DecodeEncodeShort(bs);
    } else {
      DecodeEncode(bs[3..]);
      DecodeEncodeStep(bs);
    }
  }
}

=== FILE: common.dfy ===
/** Small value types shared by the decoder and the player models. */
module Common {

  /** An octet, as held by a `Uint8Array`. */
  type byte = x: int | 0 <= x < 256

  /** A value that may be absent: JavaScript's `undefined` / `null`. */
  datatype Option<+T> = None | Some(value: T)

  /** The outcome of a call that can throw synchronously. */
  datatype Result<+T, +E> = Success(value: T) | Failure(error: E)
}

=== FILE: decode_worker.dfy ===
/** The decode worker of core/parser.worker/index.ts: inflate the request
    bytes, decode the `MovieEntity` message, turn every image asset into
    Base64 text, and post one scene back. Inflate and schema decoding are
    foreign libraries, so they enter as a `Codec` of functions that may fail. */
module DecodeWorker {
  import opened Common
  import Base64
  import Video

  /** The two foreign stages: zlib's `Inflate` and protobuf's `decode`. */
  datatype Codec = Codec(
    inflate: seq<byte> -> Option<seq<byte>>,
    decode: seq<byte> -> Option<Video.Movie>)

  /** The stage that threw. */
  datatype Fault = InflateFailed | DecodeFailed

  /** `u8aToString`: one character per octet, the character code being the octet. */
  function Latin1(bytes: seq<byte>): (s: string)
    ensures |s| == |bytes|
    ensures forall i :: 0 <= i < |s| ==> s[i] as int == bytes[i]
  {
    seq(|bytes|, i requires 0 <= i < |bytes| => bytes[i] as char)
  }

  /** The octets a string of code points below 256 stands for. */
  function Octets(s: string): (bytes: seq<byte>)
    requires forall i :: 0 <= i < |s| ==> s[i] as int < 256
    ensures |bytes| == |s|
  {
    seq(|s|, i requires 0 <= i < |s| => s[i] as int)
  }

  /** `btoa`: Base64 of a string whose characters are all below code point 256. The text
      decodes back to the string's octets, and it is the only text that does. */
  function Btoa(s: string): (r: string)
    requires forall i :: 0 <= i < |s| ==> s[i] as int < 256
    ensures Base64.Decode(r) == Some(Octets(s))
    ensures forall t :: Base64.Decode(t) == Some(Octets(s)) ==> t == r
  {
    var r := Base64.Encode(Octets(s));
    Base64.DecodeEncode(Octets(s));
    assert forall t :: Base64.Decode(t) == Some(Octets(s)) ==> t == r by {
      forall t | Base64.Decode(t) == Some(Octets(s))
        ensures t == r
      {
        Base64.EncodeDecode(t);
      }
    }
    r
  }

  lemma OctetsOfLatin1(bytes: seq<byte>)
    ensures Octets(Latin1(bytes)) == bytes
  {
  }

  /** The image asset transform: one Base64 string per key, computed from that key's octets alone. */
  function EncodeImages(images: map<string, seq<byte>>): (r: map<string, string>)
    ensures r.Keys == images.Keys
    ensures forall k :: k in r ==> Base64.Decode(r[k]) == Some(images[k])
    ensures forall k :: k in r ==> r[k] == Base64.Encode(images[k])
  {
    var r := map k | k in images :: Btoa(Latin1(images[k]));
    assert forall k :: k in r ==> Base64.Decode(r[k]) == Some(images[k]) && r[k] == Base64.Encode(images[k]) by {
      forall k | k in r
        ensures Base64.Decode(r[k]) == Some(images[k]) && r[k] == Base64.Encode(images[k])
      {
        OctetsOfLatin1(images[k]);
        Base64.DecodeEncode(images[k]);
      }
    }
    r
  }

  /** The `for (let key in movie.images)` loop, for any enumeration order of the keys:
      whatever the order, the result is the same per-key transform. */
  method TransformImages(images: map<string, seq<byte>>, order: seq<string>) returns (out: map<string, string>)
    requires forall i :: 0 <= i < |order| ==> order[i] in images
    requires forall k :: k in images ==> k in order
    ensures out == EncodeImages(images)
    ensures out.Keys == images.Keys && forall k :: k in out ==> out[k] == Base64.Encode(images[k])
  {
    out := map[];
    var n := 0;
    while n < |order|
      invariant 0 <= n <= |order|
      invariant forall k :: k in out <==> k in order[..n]
      invariant forall k :: k in out ==> k in images && out[k] == Btoa(Latin1(images[k]))
    {
      var key := order[n];
      out := out[key := Btoa(Latin1(images[key]))];
      n := n + 1;
      assert order[..n] == order[..n - 1] + [key];
    }
    assert order[..n] == order;
    var e := EncodeImages(images);
    assert out.Keys == e.Keys;
    assert forall k :: k in out ==> out[k] == e[k];
  }

  /** `worker.onmessage`: the stages in order; a stage that throws ends the request. */
  function OnMessage(data: seq<byte>, codec: Codec): (r: Result<Video.Entity, Fault>)
    ensures codec.inflate(data).None? ==> r == Failure(InflateFailed)
    ensures codec.inflate(data).Some? && codec.decode(codec.inflate(data).value).None? ==> r == Failure(DecodeFailed)
    ensures codec.inflate(data).Some? && codec.decode(codec.inflate(data).value).Some? ==> r.Success?
    ensures r.Success? ==>
      && codec.inflate(data).Some?
      && codec.decode(codec.inflate(data).value).Some?
      && var movie := codec.decode(codec.inflate(data).value).value;
      && r.value.frames == movie.frames && r.value.fps == movie.fps
      && r.value.images.Keys == movie.images.Keys
      && (forall k :: k in r.value.images ==> Base64.Decode(r.value.images[k]) == Some(movie.images[k]))
      && (forall k :: k in r.value.images ==> r.value.images[k] == Base64.Encode(movie.images[k]))
  {
    match codec.inflate(data)
    case None => Failure(InflateFailed)
    case Some(inflated) =>
      match codec.decode(inflated)
      case None => Failure(DecodeFailed)
      case Some(movie) => Success(Video.FromMovie(movie, EncodeImages(movie.images)))
  }

  /** The messages the worker posts for one request: the scene, or nothing when a stage threw. */
  function Posted(data: seq<byte>, codec: Codec): (posts: seq<Video.Entity>)
    ensures |posts| <= 1
    ensures |posts| == 1 <==> OnMessage(data, codec).Success?
    ensures |posts| == 1 ==> posts[0] == OnMessage(data, codec).value
  {
    match OnMessage(data, codec)
    case Success(v) => [v]
    case Failure(_) => []
  }

  /** The in-page stand-in's `postMessage`: forwards to `onmessageCallback` only when one is set. */
  function MockPostMessage(callbackSet: bool, posts: seq<Video.Entity>): (delivered: seq<Video.Entity>)
    ensures callbackSet ==> delivered == posts
    ensures !callbackSet ==> delivered == []
  {
    if callbackSet then posts else []
  }
}

=== FILE: parser.dfy ===
/** The `Parser` of core/parser.ts: a synchronous input check, then one
    round trip to the decode worker, either a real background worker or the
    in-page stand-in that runs the same pipeline on the caller's thread. */
module Parser {
  import opened Common
  import Video
  import DecodeWorker

  /** The decode facility the parser holds. A real worker can be terminated. */
  datatype Worker = Mock | Real(terminated: bool)

  datatype State = State(worker: Option<Worker>)

  /** The errors `do` and `destroy` throw synchronously, before any promise exists. */
  datatype SyncError =
    | HeaderOutOfRange    // `new Uint8Array(data, 0, 4)` on a buffer shorter than four octets
    | UnsupportedVersion  // the ZIP local file header of the 1.x format
    | DataNotFound
    | WorkerNotFound
    | WorkerUndefined     // `destroy` reading `terminate` of an undefined worker

  /** How the promise `do` returns ends up. `Pending` is a promise that never settles. */
  datatype Settlement = Resolved(video: Video.Entity) | Rejected(fault: DecodeWorker.Fault) | Pending

  /** The local file header signature of section 4.3.7 of PKWARE's APPNOTE.TXT, which opens every 1.x file. */
  const LegacySignature: seq<byte> := [0x50, 0x4B, 0x03, 0x04]

  predicate IsLegacy(data: seq<byte>) {
    |data| >= 4 && data[..4] == LegacySignature
  }

  /** The constructor: a background worker, or the stand-in when workers are disabled. */
  function Create(disableWorker: bool): (p: State)
    ensures p.worker.Some? && (p.worker.value == Mock <==> disableWorker)
    ensures p.worker.Some? && p.worker.value.Real? ==> !p.worker.value.terminated
  {
    State(Some(if disableWorker then Mock else Real(false)))
  }

  /** `new Uint8Array(data, 0, 4)`: absent data views as an empty array; a short buffer throws. */
  function Header(data: Option<seq<byte>>): (r: Result<seq<byte>, SyncError>)
    ensures data.None? ==> r == Success([])
    ensures data.Some? && |data.value| < 4 ==> r == Failure(HeaderOutOfRange)
    ensures data.Some? && |data.value| >= 4 ==> r == Success(data.value[..4])
  {
    match data
    case None => Success([])
    case Some(bytes) => if |bytes| < 4 then Failure(HeaderOutOfRange) else Success(bytes[..4])
  }

  /** `do`: the header check, then the data and worker checks, then one request to the worker. */
  function Do(p: State, data: Option<seq<byte>>, codec: DecodeWorker.Codec): (r: Result<Settlement, SyncError>)
    ensures data.Some? && IsLegacy(data.value) ==> r == Failure(UnsupportedVersion)
    ensures data.Some? && |data.value| < 4 ==> r == Failure(HeaderOutOfRange)
    ensures data.None? ==> r == Failure(DataNotFound)
    ensures r == Failure(WorkerNotFound) <==>
      data.Some? && |data.value| >= 4 && !IsLegacy(data.value) && p.worker.None?
    ensures r.Success? <==> data.Some? && |data.value| >= 4 && !IsLegacy(data.value) && p.worker.Some?
    ensures r.Success? && r.value.Resolved? ==> DecodeWorker.Posted(data.value, codec) == [r.value.video]
    ensures r.Success? && r.value.Rejected? ==>
      p.worker == Some(Mock) && DecodeWorker.OnMessage(data.value, codec) == Failure(r.value.fault)
  {
    match Header(data)
    case Failure(e) => Failure(e)
    case Success(header) =>
      if header == LegacySignature then Failure(UnsupportedVersion)
      else if data.None? then Failure(DataNotFound)
      else if p.worker.None? then Failure(WorkerNotFound)
      else Success(Dispatch(p.worker.value, data.value, codec))
  }

  /** The promise body: the stand-in runs the pipeline inline with `onmessageCallback` set to
      `resolve`, so a throwing stage rejects; a real worker is posted the data and its first
      reply resolves, while a throwing stage or a terminated worker leaves the promise pending. */
  function Dispatch(w: Worker, data: seq<byte>, codec: DecodeWorker.Codec): (s: Settlement)
    ensures s.Resolved? <==> DecodeWorker.OnMessage(data, codec).Success? && w != Real(true)
    ensures s.Resolved? ==> s.video == DecodeWorker.OnMessage(data, codec).value
    ensures s.Rejected? <==> DecodeWorker.OnMessage(data, codec).Failure? && w == Mock
    ensures s.Rejected? ==> s.fault == DecodeWorker.OnMessage(data, codec).error
    ensures s.Pending? <==> w.Real? && (w.terminated || DecodeWorker.OnMessage(data, codec).Failure?)
  {
    match w
    case Mock =>
      var delivered := DecodeWorker.MockPostMessage(true, DecodeWorker.Posted(data, codec));
      if |delivered| > 0 then Resolved(delivered[0])
      else Rejected(DecodeWorker.OnMessage(data, codec).error)
    case Real(terminated) =>
      var replies := if terminated then [] else DecodeWorker.Posted(data, codec);
      if |replies| > 0 then Resolved(replies[0]) else Pending
  }

  /** Whatever the bytes after it, a 1.x header is refused before anything else is looked at. */
  lemma LegacyAlwaysRefused(p: State, rest: seq<byte>, codec: DecodeWorker.Codec)
    ensures Do(p, Some(LegacySignature + rest), codec) == Failure(UnsupportedVersion)
  {
    assert (LegacySignature + rest)[..4] == LegacySignature;
  }

  /** The stand-in and a live background worker resolve with the same scene, and only when the pipeline succeeds. */
  lemma StandInMatchesWorker(data: seq<byte>, codec: DecodeWorker.Codec)
    requires |data| >= 4 && !IsLegacy(data)
    ensures Do(State(Some(Mock)), Some(data), codec).Success?
    ensures Do(State(Some(Real(false))), Some(data), codec).Success?
    ensures DecodeWorker.OnMessage(data, codec).Success? ==>
      && Do(State(Some(Mock)), Some(data), codec).value == Resolved(DecodeWorker.OnMessage(data, codec).value)
      && Do(State(Some(Real(false))), Some(data), codec).value == Resolved(DecodeWorker.OnMessage(data, codec).value)
    ensures DecodeWorker.OnMessage(data, codec).Failure? ==>
      && Do(State(Some(Mock)), Some(data), codec).value == Rejected(DecodeWorker.OnMessage(data, codec).error)
      && Do(State(Some(Real(false))), Some(data), codec).value == Pending
  {
  }

  /** `destroy`: terminates a real worker; the stand-in has no `terminate`, so nothing happens. */
  function Destroy(p: State): (r: Result<State, SyncError>)
    ensures p.worker.None? ==> r == Failure(WorkerUndefined)
    ensures p.worker == Some(Mock) ==> r == Success(p)
    ensures p.worker.Some? && p.worker.value.Real? ==> r == Success(State(Some(Real(true))))
  {
    match p.worker
    case None => Failure(WorkerUndefined)
    case Some(Mock) => Success(p)
    case Some(Real(_)) => Success(State(Some(Real(true))))
  }

  /** Destroying twice has the effect of destroying once. */
  lemma DestroyIdempotent(p: State)
    requires p.worker.Some?
    ensures Destroy(p).Success? && Destroy(Destroy(p).value) == Destroy(p)
  {
  }
}

=== FILE: player.dfy ===
/** The `Player` of core/player/index.ts: lifecycle calls over a mounted
    scene, the derivation of the animator's range, duration, loop count and
    fill rule on every start, and the mapping of animated values to frame
    indices. Renderer calls and emitted events are recorded, in order, as
    effects; a call that throws returns the state as it was when it threw. */
module Player {
  import opened Common
  import Animator
  import Video

  /** The `loop` option: a boolean or a number of passes. */
  datatype LoopSetting = Flag(on: bool) | Count(n: real)

  datatype FillMode = FillForwards | FillBackwards

  datatype PlayMode = Forwards | Fallbacks

  datatype Event = StartEvent | ResumeEvent | ProcessEvent | PauseEvent | StopEvent | EndEvent | ClearEvent

  /** A renderer call (`prepare`, `clear`, `drawFrame`), the canvas resize of `_setSize`, or a call
      of the handler registered for an event (a no-op until `$on` replaces it). */
  datatype Effect = Prepare | ClearSurface | DrawFrame(index: int) | Resize(width: real, height: real) | Emit(event: Event)

  /** `VideoItemUndefined` is the source's own error; `Released` is the TypeError of calling into
      the renderer or animator after `destroy` has set them to null. */
  datatype Error = VideoItemUndefined | Released

  /** A synchronous throw, or the rejection of the promise `mount` returns. */
  datatype Failure = Threw(error: Error) | Rejected(error: Error)

  /** The options `set` reads; `None` is an option left undefined. */
  datatype Options = Options(
    loop: Option<LoopSetting>,
    fillMode: Option<FillMode>,
    playMode: Option<PlayMode>,
    startFrame: Option<int>,
    endFrame: Option<int>,
    cacheFrames: Option<bool>,
    noExecutionDelay: Option<bool>)

  datatype State = State(
    loop: LoopSetting,
    fillMode: FillMode,
    playMode: PlayMode,
    progress: real,
    currentFrame: int,
    totalFramesCount: int,    // the last frame index, `frames - 1`
    startFrame: int,
    endFrame: int,
    cacheFrames: bool,
    video: Option<Video.Entity>,
    animator: Animator.State,
    onUpdate: Option<Video.FrameCount>,  // the frame count the installed `onUpdate` closure captured
    endHooked: bool,          // `$on('end', …)` has routed the animator's `onEnd` to the `end` handler
    released: bool)           // `destroy` has set the renderer and the animator to null

  datatype Step = Step(state: State, effects: seq<Effect>, failure: Option<Failure>)

  /** The field initialisers of a new player. */
  const Fresh: State := State(Flag(true), FillForwards, Forwards, 0.0, 0, 0, 0, 0, false, None, Animator.Initial, None, false, false)

  /** JavaScript's `x || d` on a frame number: `d` when `x` is 0. */
  function Or(x: int, d: int): int {
    if x != 0 then x else d
  }

  // ---------------------------------------------------------------------------
  // Options and mounting

  /** A frame option only replaces the field when it is truthy: 0 and `undefined` keep the old value. */
  function Truthy(option: Option<int>, old_: int): (f: int)
    ensures option.Some? && option.value != 0 ==> f == option.value
    ensures option.None? || option.value == 0 ==> f == old_
  {
    if option.Some? && option.value != 0 then option.value else old_
  }

  /** The option fields `set` writes before it reaches the animator. */
  function Apply(p: State, o: Options): (q: State)
    ensures q.(loop := p.loop, fillMode := p.fillMode, playMode := p.playMode, cacheFrames := p.cacheFrames,
               startFrame := p.startFrame, endFrame := p.endFrame) == p
  {
    p.(
      loop := if o.loop.Some? then o.loop.value else p.loop,
      fillMode := if o.fillMode.Some? then o.fillMode.value else p.fillMode,
      playMode := if o.playMode.Some? then o.playMode.value else p.playMode,
      cacheFrames := if o.cacheFrames.Some? then o.cacheFrames.value else p.cacheFrames,
      startFrame := Truthy(o.startFrame, p.startFrame),
      endFrame := Truthy(o.endFrame, p.endFrame))
  }

  /** `set`: every option that is given replaces the field, except that a `startFrame` or
      `endFrame` of 0 is falsy and keeps the old value; `noExecutionDelay` is written to
      the animator unconditionally, so leaving it out turns it off. After `destroy` that last
      write throws, the fields already written. */
  function Set(p: State, o: Options): (r: Step)
    ensures o.loop.Some? ==> r.state.loop == o.loop.value
    ensures o.loop.None? ==> r.state.loop == p.loop
    ensures o.fillMode.Some? ==> r.state.fillMode == o.fillMode.value
    ensures o.fillMode.None? ==> r.state.fillMode == p.fillMode
    ensures o.playMode.Some? ==> r.state.playMode == o.playMode.value
    ensures o.playMode.None? ==> r.state.playMode == p.playMode
    ensures o.cacheFrames.Some? ==> r.state.cacheFrames == o.cacheFrames.value
    ensures o.cacheFrames.None? ==> r.state.cacheFrames == p.cacheFrames
    ensures o.startFrame.Some? && o.startFrame.value != 0 ==> r.state.startFrame == o.startFrame.value
    ensures o.startFrame.None? || o.startFrame.value == 0 ==> r.state.startFrame == p.startFrame
    ensures o.endFrame.Some? && o.endFrame.value != 0 ==> r.state.endFrame == o.endFrame.value
    ensures o.endFrame.None? || o.endFrame.value == 0 ==> r.state.endFrame == p.endFrame
    ensures p.startFrame != 0 ==> r.state.startFrame != 0
    ensures p.endFrame != 0 ==> r.state.endFrame != 0
    ensures r.state.currentFrame == p.currentFrame && r.state.video == p.video
    ensures r.state.(loop := p.loop, fillMode := p.fillMode, playMode := p.playMode, cacheFrames := p.cacheFrames,
                     startFrame := p.startFrame, endFrame := p.endFrame, animator := p.animator) == p
    ensures r.state.animator.(noExecutionDelay := p.animator.noExecutionDelay) == p.animator
    ensures !p.released ==> r.failure == None && (r.state.animator.noExecutionDelay <==> o.noExecutionDelay == Some(true))
    ensures p.released ==> r.failure == Some(Threw(Released)) && r.state.animator == p.animator
    ensures r.effects == []
  {
    var q := Apply(p, o);
    if p.released then Step(q, [], Some(Threw(Released)))
    else Step(q.(animator := q.animator.(noExecutionDelay := o.noExecutionDelay == Some(true))), [], None)
  }

  /** Leaving a frame option at 0 cannot bring a frame bound back to its default. */
  lemma SetKeepsFrameBounds(p: State, o: Options)
    requires o.startFrame == Some(0) && o.endFrame == Some(0)
    ensures Set(p, o).state.startFrame == p.startFrame && Set(p, o).state.endFrame == p.endFrame
  {
  }

  /** `mount`: the frame counters are reset for the new scene before the renderer is asked to
      prepare, clear and resize; after `destroy` the promise rejects with the fields already written. */
  function Mount(p: State, v: Video.Entity): (r: Step)
    ensures r.state.currentFrame == 0 && r.state.progress == 0.0
    ensures r.state.totalFramesCount == v.frames - 1
    ensures r.state.video == Some(v) && Mounted(r.state)
    ensures 0 <= r.state.currentFrame <= r.state.totalFramesCount
    ensures r.state.(currentFrame := p.currentFrame, progress := p.progress,
                     totalFramesCount := p.totalFramesCount, video := p.video) == p
    ensures !p.released ==> r.failure == None && r.effects == [Prepare, ClearSurface, Resize(v.width, v.height)]
    ensures p.released ==> r.failure == Some(Rejected(Released)) && r.effects == []
  {
    var q := p.(currentFrame := 0, progress := 0.0, totalFramesCount := v.frames - 1, video := Some(v));
    if p.released then Step(q, [], Some(Rejected(Released)))
    else Step(q, [Prepare, ClearSurface, Resize(v.width, v.height)], None)
  }

  /** A scene is mounted and the last frame index is that scene's. */
  predicate Mounted(p: State) {
    p.video.Some? && p.totalFramesCount == p.video.value.frames - 1
  }

  /** Mounting again replaces the previous scene wholesale. */
  lemma RemountReplaces(p: State, v1: Video.Entity, v2: Video.Entity)
    ensures Mount(Mount(p, v1).state, v2).state == Mount(p, v2).state
  {
  }

  /** The constructor, past its canvas checks: mount the scene if one is given, then apply the options. */
  function Create(video: Option<Video.Entity>, options: Option<Options>): (r: Step)
    ensures r.failure == None && !r.state.released
    ensures r.state.video == video && r.state.currentFrame == 0
    ensures video.Some? ==> r.state.totalFramesCount == video.value.frames - 1
    ensures options.None? ==> r.state.loop == Flag(true) && !r.state.animator.running
    ensures options.None? ==> r.state.startFrame == 0 && r.state.endFrame == 0 && r.state.playMode.Forwards?
    ensures options.Some? ==> var o := options.value;
      && r.state.loop == (if o.loop.Some? then o.loop.value else Flag(true))
      && r.state.fillMode == (if o.fillMode.Some? then o.fillMode.value else FillForwards)
      && r.state.playMode == (if o.playMode.Some? then o.playMode.value else Forwards)
      && r.state.cacheFrames == (o.cacheFrames == Some(true))
      && r.state.startFrame == (if o.startFrame.Some? then o.startFrame.value else 0)
      && r.state.endFrame == (if o.endFrame.Some? then o.endFrame.value else 0)
      && (r.state.animator.noExecutionDelay <==> o.noExecutionDelay == Some(true))
  {
    var m := if video.Some? then Mount(Fresh, video.value) else Step(Fresh, [], None);
    if options.Some? then
      var s := Set(m.state, options.value);
      Step(s.state, m.effects + s.effects, None)
    else m
  }

  // ---------------------------------------------------------------------------
  // The animator configuration derived on every start and resume

  /** Where a start or resume begins: at the last frame it restarts from `startFrame || 0`. */
  function RestartFrame(p: State): (f: int)
    ensures p.currentFrame == p.totalFramesCount ==> f == p.startFrame
    ensures p.currentFrame != p.totalFramesCount ==> f == p.currentFrame
  {
    if p.currentFrame == p.totalFramesCount then Or(p.startFrame, 0) else p.currentFrame
  }

  /** The animator's scalar range: `[startFrame || 0, endFrame || totalFramesCount]`, reversed for `fallbacks`. */
  function Bounds(mode: PlayMode, startFrame: int, endFrame: int, total: int): (b: (int, int))
    ensures startFrame == 0 && endFrame == 0 ==> b == (if mode.Forwards? then (0, total) else (total, 0))
    ensures startFrame != 0 ==> (if mode.Forwards? then b.0 else b.1) == startFrame
    ensures endFrame != 0 ==> (if mode.Forwards? then b.1 else b.0) == endFrame
    ensures startFrame == 0 ==> (if mode.Forwards? then b.0 else b.1) == 0
    ensures endFrame == 0 ==> (if mode.Forwards? then b.1 else b.0) == total
  {
    var first := Or(startFrame, 0);
    var last := Or(endFrame, total);
    if mode.Fallbacks? then (last, first) else (first, last)
  }

  /** The number of frames the duration is computed for. */
  function EffectiveFrames(frames: Video.FrameCount, startFrame: int, endFrame: int): (n: int)
    ensures n > 0 <==> !(endFrame <= 0 && startFrame >= frames)
    ensures 0 < endFrame && startFrame < endFrame ==> n == endFrame - startFrame
    ensures endFrame <= 0 && 0 < startFrame ==> n == frames - startFrame
    ensures endFrame <= 0 && startFrame <= 0 ==> n == frames
    ensures 0 < endFrame <= startFrame ==> n == frames
  {
    if endFrame > 0 && endFrame > startFrame then endFrame - startFrame
    else if endFrame <= 0 && startFrame > 0 then frames - startFrame
    else frames
  }

  /** `frames * (1 / FPS) * 1000`: the milliseconds that `frames` frames last at `fps`. */
  function Duration(frames: int, fps: Video.Rate): (d: real)
    ensures d * fps == frames as real * 1000.0
    ensures d > 0.0 <==> frames > 0
    ensures d == 0.0 <==> frames == 0
  {
    var d := frames as real * (1.0 / fps) * 1000.0;
    assert d * fps == frames as real * 1000.0 * (fps / fps);
    d
  }

  /** JavaScript's `ToNumber` on the option: `true` is 1 and `false` is 0. */
  function AsNumber(loop: LoopSetting): real {
    match loop
    case Flag(b) => if b then 1.0 else 0.0
    case Count(n) => n
  }

  /** `loop === true || loop <= 0 ? Infinity : (loop === false ? 1 : loop)`. */
  function LoopCount(loop: LoopSetting): (l: Animator.Loop)
    ensures l.Finite? <==> loop.Count? && loop.n > 0.0
    ensures l.Finite? ==> l.count == loop.n && l.count > 0.0
  {
    if loop == Flag(true) || AsNumber(loop) <= 0.0 then Animator.Infinite
    else if loop == Flag(false) then Animator.Finite(1.0)
    else Animator.Finite(loop.n)
  }

  /** `fillMode === 'backwards' ? 1 : 0`. */
  function FillRule(mode: FillMode): (rule: int)
    ensures rule == 1 <==> mode.FillBackwards?
    ensures rule == 0 <==> mode.FillForwards?
  {
    match mode
    case FillBackwards => 1
    case FillForwards => 0
  }

  /** The animator as `_startAnimation` configures it before calling `start`. */
  function Configure(p: State): (a: Animator.State)
    requires p.video.Some?
    ensures p.startFrame == 0 && p.endFrame == 0 ==>
      && a.duration * p.video.value.fps == p.video.value.frames as real * 1000.0
      && (if p.playMode.Forwards? then a.startValue == 0.0 && a.endValue == p.totalFramesCount as real
          else a.startValue == p.totalFramesCount as real && a.endValue == 0.0)
    ensures a.duration > 0.0 <==> !(p.endFrame <= 0 && p.startFrame >= p.video.value.frames)
    ensures a.loop.Finite? <==> p.loop.Count? && p.loop.n > 0.0
    ensures a.fillRule == 1 <==> p.fillMode.FillBackwards?
    ensures a.running == p.animator.running && a.noExecutionDelay == p.animator.noExecutionDelay
    ensures a.startTime == p.animator.startTime && a.worker == p.animator.worker
    ensures var b := Bounds(p.playMode, p.startFrame, p.endFrame, p.totalFramesCount);
      a.startValue == b.0 as real && a.endValue == b.1 as real
    ensures a.duration * p.video.value.fps
      == EffectiveFrames(p.video.value.frames, p.startFrame, p.endFrame) as real * 1000.0
    ensures a.loop.Finite? ==> a.loop.count == p.loop.n
    ensures a.fillRule == 0 <==> p.fillMode.FillForwards?
    ensures a.(startValue := p.animator.startValue, endValue := p.animator.endValue,
      duration := p.animator.duration, loop := p.animator.loop, fillRule := p.animator.fillRule) == p.animator
  {
    var b := Bounds(p.playMode, p.startFrame, p.endFrame, p.totalFramesCount);
    var v := p.video.value;
    p.animator.(
      startValue := b.0 as real,
      endValue := b.1 as real,
      duration := Duration(EffectiveFrames(v.frames, p.startFrame, p.endFrame), v.fps),
      loop := LoopCount(p.loop),
      fillRule := FillRule(p.fillMode))
  }

  /** The animator arithmetic of a start stays finite: the source would compute an infinite
      start time or a NaN fraction otherwise. */
  predicate StartDefined(p: State, now: real, firstTick: real) {
    p.video.Some? && !p.released ==>
      var a := Configure(p);
      var cv := RestartFrame(p) as real;
      && Animator.BackProjectionDefined(a, cv)
      && Animator.TickDefined(Animator.Launch(a, now, cv).state, firstTick)
  }

  // ---------------------------------------------------------------------------
  // The frame mapping installed as the animator's `onUpdate`

  /** The `onUpdate` closure: the floor of the animated value becomes the current frame when it
      differs from it, with the progress recomputed from the captured frame count, one
      `drawFrame` and one `process` event. Before any start the default callback does nothing. */
  function OnUpdate(p: State, value: real): (r: Step)
    ensures r.failure == None && r.state.animator == p.animator
    ensures p.onUpdate.None? ==> r == Step(p, [], None)
    ensures p.onUpdate.Some? ==> r.state.currentFrame == value.Floor
    ensures p.onUpdate.Some? && value.Floor == p.currentFrame ==> r == Step(p, [], None)
    ensures p.onUpdate.Some? && value.Floor != p.currentFrame ==>
      && r.effects == [DrawFrame(value.Floor), Emit(ProcessEvent)]
      && r.state.progress * p.onUpdate.value as real == (value.Floor + 1) as real * 100.0
      && r.state == p.(currentFrame := value.Floor, progress := r.state.progress)
  {
    match p.onUpdate
    case None => Step(p, [], None)
    case Some(frames) =>
      var f := value.Floor;
      if f == p.currentFrame then Step(p, [], None)
      else
        var progress := (f + 1) as real / frames as real * 100.0;
        assert progress * frames as real == (f + 1) as real * 100.0;
        Step(p.(currentFrame := f, progress := progress), [DrawFrame(f), Emit(ProcessEvent)], None)
  }

  /** The effects an animator callback can have on its own. */
  predicate Callback(e: Effect) {
    e.DrawFrame? || e == Emit(ProcessEvent) || e == Emit(EndEvent)
  }

  /** The value of the last `onUpdate` among `signals`, if any. */
  function LastUpdate(signals: seq<Animator.Signal>): Option<real>
    decreases |signals|
  {
    if |signals| == 0 then None
    else match LastUpdate(signals[1..])
      case Some(v) => Some(v)
      case None => if signals[0].Updated? then Some(signals[0].value) else None
  }

  /** The signals of one tick: the update, then the end or the next request. */
  lemma LastUpdateOfTick(v: real, next: Animator.Signal)
    requires !next.Updated?
    ensures LastUpdate([Animator.Updated(v), next]) == Some(v)
  {
    assert [Animator.Updated(v), next][1..] == [next];
    assert [next][1..] == [];
    assert LastUpdate([next]) == None;
  }

  /** The signals of a start: `onStart`, then one tick. */
  lemma LastUpdateOfStart(v: real, next: Animator.Signal)
    requires !next.Updated?
    ensures LastUpdate([Animator.Started, Animator.Updated(v), next]) == Some(v)
  {
    assert [Animator.Started, Animator.Updated(v), next][1..] == [Animator.Updated(v), next];
    LastUpdateOfTick(v, next);
  }

  /** One animator callback: `onUpdate` maps the value; `onEnd` reaches the `end` handler once
      `$on('end')` has hooked it; the player sets no `onStart`. */
  function Notify(p: State, signal: Animator.Signal): (r: Step)
    ensures r.failure == None
    ensures r.state.(currentFrame := p.currentFrame, progress := p.progress) == p
    ensures forall i :: 0 <= i < |r.effects| ==> Callback(r.effects[i])
    ensures Emit(EndEvent) in r.effects <==> signal == Animator.Ended && p.endHooked
    ensures signal.Updated? && p.onUpdate.Some? ==> r.state.currentFrame == signal.value.Floor
    ensures !signal.Updated? || p.onUpdate.None? ==> r.state.currentFrame == p.currentFrame
    ensures !signal.Updated? ==> r.state == p
  {
    match signal
    case Updated(v) => OnUpdate(p, v)
    case Ended => Step(p, if p.endHooked then [Emit(EndEvent)] else [], None)
    case Started => Step(p, [], None)
    case Scheduled => Step(p, [], None)
  }

  /** The animator's callbacks, in the order it fired them: the frame ends up at the floor of the
      last animated value, and the `end` handler runs exactly when `onEnd` fired and is hooked. */
  function Deliver(p: State, signals: seq<Animator.Signal>): (r: Step)
    ensures r.failure == None
    ensures r.state.(currentFrame := p.currentFrame, progress := p.progress) == p
    ensures forall i :: 0 <= i < |r.effects| ==> Callback(r.effects[i])
    ensures Emit(EndEvent) in r.effects <==> Animator.Ended in signals && p.endHooked
    ensures LastUpdate(signals).Some? && p.onUpdate.Some? ==> r.state.currentFrame == LastUpdate(signals).value.Floor
    ensures LastUpdate(signals).None? || p.onUpdate.None? ==> r.state.currentFrame == p.currentFrame
    decreases |signals|
  {
    if |signals| == 0 then Step(p, [], None)
    else
      var first := Notify(p, signals[0]);
      var rest := Deliver(first.state, signals[1..]);
      assert signals == [signals[0]] + signals[1..];
      Step(rest.state, first.effects + rest.effects, None)
  }

  /** `$on(eventName, handler)`: the handler itself is not modelled; registering one for `end`
      also routes the animator's `onEnd` to it, which throws once `destroy` has dropped the animator. */
  function On(p: State, event: Event): (r: Step)
    ensures r.effects == []
    ensures r.state.endHooked <==> p.endHooked || (event == EndEvent && !p.released)
    ensures r.failure.Some? <==> event == EndEvent && p.released
    ensures r.failure.Some? ==> r.failure == Some(Threw(Released))
    ensures r.state.(endHooked := p.endHooked) == p
  {
    if event != EndEvent then Step(p, [], None)
    else if p.released then Step(p, [], Some(Threw(Released)))
    else Step(p.(endHooked := true), [], None)
  }

  // ---------------------------------------------------------------------------
  // Lifecycle

  /** The progress once the frame mapping has run from frame `from`: kept when the frame
      stayed there, otherwise `(frame + 1) / frames * 100`. */
  predicate ProgressFrom(from: int, progress: real, frames: int, q: State) {
    && (q.currentFrame == from ==> q.progress == progress)
    && (q.currentFrame != from ==> q.progress * frames as real == (q.currentFrame + 1) as real * 100.0)
  }

  /** What `_startAnimation` leaves behind: the animator configured as `Configure` derives it
      and started from `RestartFrame(p)`, its start time moved back from `now` by that frame's
      share of the duration, and its fraction, worker and running state those of a first tick
      at `firstTick`; the frame at the floor of the first animated value and the progress
      recomputed when that frame moved; the frame mapping for the mounted scene installed; the
      scene, frame counts, options and hooks unchanged. */
  predicate Launched(p: State, now: real, firstTick: real, q: State)
    requires p.video.Some?
  {
    var a := Configure(p);
    var cv := RestartFrame(p) as real;
    && Animator.SameConfig(a, q.animator)
    && Animator.BackProjected(a, now, cv, q.animator.startTime)
    && (q.animator.running <==> !Animator.Reached(firstTick - q.animator.startTime, a.duration, a.loop))
    && Animator.FirstTicked(a, firstTick, q.animator)
    && q.currentFrame == Animator.AnimatedValue(q.animator).Floor
    && ProgressFrom(RestartFrame(p), p.progress, p.video.value.frames, q)
    && q.onUpdate == Some(p.video.value.frames)
    && q.(currentFrame := p.currentFrame, progress := p.progress, animator := p.animator, onUpdate := p.onUpdate) == p
  }

  /** `_startAnimation`: restart at the last frame, configure the animator, install the
      `onUpdate` closure for this scene, and start the animator from the current frame. */
  function StartAnimation(p: State, now: real, firstTick: real): (r: Step)
    requires p.video.Some? && !p.released && StartDefined(p, now, firstTick)
    ensures r.failure == None
    ensures Launched(p, now, firstTick, r.state)
    ensures forall i :: 0 <= i < |r.effects| ==> Callback(r.effects[i])
  {
    var cf := RestartFrame(p);
    var run := Animator.Start(Configure(p), now, firstTick, cf as real);
    var q := p.(currentFrame := cf, onUpdate := Some(p.video.value.frames), animator := run.state);
    DeliverLaunch(p, now, firstTick);
    Deliver(q, run.signals)
  }

  /** Delivering the signals of the animator's start leaves the player `Launched`. */
  lemma DeliverLaunch(p: State, now: real, firstTick: real)
    requires p.video.Some? && !p.released && StartDefined(p, now, firstTick)
    ensures var run := Animator.Start(Configure(p), now, firstTick, RestartFrame(p) as real);
      var q := p.(currentFrame := RestartFrame(p), onUpdate := Some(p.video.value.frames), animator := run.state);
      Launched(p, now, firstTick, Deliver(q, run.signals).state)
  {
    var a := Configure(p);
    var cv := RestartFrame(p) as real;
    var run := Animator.Start(a, now, firstTick, cv);
    var q := p.(currentFrame := RestartFrame(p), onUpdate := Some(p.video.value.frames), animator := run.state);
    var s := run.state;
    var v := Animator.AnimatedValue(s);
    DeliverStart(q, run.signals, v);
    var r := Deliver(q, run.signals).state;
    assert r == q.(currentFrame := v.Floor, progress := r.progress);
    assert r.animator == s && r.currentFrame == v.Floor && r.onUpdate == Some(p.video.value.frames);
    assert r.(currentFrame := p.currentFrame, progress := p.progress, animator := p.animator, onUpdate := p.onUpdate) == p;
  }

  /** The signals of a start move the frame to the floor of the one value they carry, and
      change nothing else but the progress. */
  lemma DeliverStart(q: State, signals: seq<Animator.Signal>, v: real)
    requires q.onUpdate.Some? && |signals| == 3 && !signals[2].Updated?
    requires signals[0] == Animator.Started && signals[1] == Animator.Updated(v)
    ensures var r := Deliver(q, signals).state;
      && r == q.(currentFrame := v.Floor, progress := r.progress)
      && ProgressFrom(q.currentFrame, q.progress, q.onUpdate.value, r)
  {
    var u := OnUpdate(q, v).state;
    assert Notify(q, signals[0]).state == q;
    assert signals[1..][0] == Animator.Updated(v) && Notify(q, signals[1..][0]).state == u;
    assert signals[1..][1..][0] == signals[2] && Notify(u, signals[1..][1..][0]).state == u;
    assert signals[1..][1..][1..] == [];
    assert Deliver(u, signals[1..][1..]).state == u;
    assert Deliver(q, signals[1..]).state == u;
  }

  /** `start`: throws without a scene; otherwise clears the surface, starts the animation
      (whose first frame is drawn at once) and emits `start`. */
  function Start(p: State, now: real, firstTick: real): (r: Step)
    requires StartDefined(p, now, firstTick)
    ensures p.video.None? ==> r == Step(p, [], Some(Threw(VideoItemUndefined)))
    ensures p.video.Some? && p.released ==> r == Step(p, [], Some(Threw(Released)))
    ensures p.video.Some? && !p.released ==>
      && r.failure == None
      && |r.effects| >= 2
      && r.effects[0] == ClearSurface
      && r.effects[|r.effects| - 1] == Emit(StartEvent)
      && Launched(p, now, firstTick, r.state)
  {
    if p.video.None? then Step(p, [], Some(Threw(VideoItemUndefined)))
    else if p.released then Step(p, [], Some(Threw(Released)))
    else
      var s := StartAnimation(p, now, firstTick);
      Step(s.state, [ClearSurface] + s.effects + [Emit(StartEvent)], None)
  }

  /** `resume`: as `start`, without clearing the surface, emitting `resume`. After `destroy`
      and a new `mount` the restart-at-last-frame reset happens before the null animator throws. */
  function Resume(p: State, now: real, firstTick: real): (r: Step)
    requires StartDefined(p, now, firstTick)
    ensures p.video.None? ==> r == Step(p, [], Some(Threw(VideoItemUndefined)))
    ensures p.video.Some? && p.released ==>
      r == Step(p.(currentFrame := RestartFrame(p)), [], Some(Threw(Released)))
    ensures p.video.Some? && !p.released ==>
      && r.failure == None
      && |r.effects| >= 1
      && r.effects[|r.effects| - 1] == Emit(ResumeEvent)
      && ClearSurface !in r.effects
      && Launched(p, now, firstTick, r.state)
  {
    if p.video.None? then Step(p, [], Some(Threw(VideoItemUndefined)))
    else if p.released then Step(p.(currentFrame := RestartFrame(p)), [], Some(Threw(Released)))
    else
      var s := StartAnimation(p, now, firstTick);
      Step(s.state, s.effects + [Emit(ResumeEvent)], None)
  }

  /** `pause`: the animator stops where it is; the frame is kept. */
  function Pause(p: State): (r: Step)
    ensures r.failure == None && r.effects == [Emit(PauseEvent)]
    ensures r.state.currentFrame == p.currentFrame && r.state.progress == p.progress
    ensures !r.state.animator.running || p.released
    ensures r.state.(animator := p.animator) == p
    ensures r.state.animator == (if p.released then p.animator else Animator.Stop(p.animator))
  {
    var a := if p.released then p.animator else Animator.Stop(p.animator);
    Step(p.(animator := a), [Emit(PauseEvent)], None)
  }

  /** `stop`: the animator stops and the frame returns to 0, which is drawn; the progress is left as it was. */
  function Stop(p: State): (r: Step)
    ensures r.state.currentFrame == 0 && r.state.progress == p.progress
    ensures !r.state.animator.running || p.released
    ensures r.state.(animator := p.animator, currentFrame := p.currentFrame) == p
    ensures r.state.animator == (if p.released then p.animator else Animator.Stop(p.animator))
    ensures !p.released ==> r.failure == None && r.effects == [DrawFrame(0), Emit(StopEvent)]
    ensures p.released ==> r.failure == Some(Threw(Released)) && r.effects == []
  {
    var a := if p.released then p.animator else Animator.Stop(p.animator);
    var q := p.(animator := a, currentFrame := 0);
    if p.released then Step(q, [], Some(Threw(Released)))
    else Step(q, [DrawFrame(0), Emit(StopEvent)], None)
  }

  /** `clear`: the animator stops and the surface is cleared; the frame is kept. */
  function Clear(p: State): (r: Step)
    ensures r.state.currentFrame == p.currentFrame
    ensures !r.state.animator.running || p.released
    ensures r.state.(animator := p.animator) == p
    ensures r.state.animator == (if p.released then p.animator else Animator.Stop(p.animator))
    ensures !p.released ==> r.failure == None && r.effects == [ClearSurface, Emit(ClearEvent)]
    ensures p.released ==> r.failure == Some(Threw(Released)) && r.effects == []
  {
    var a := if p.released then p.animator else Animator.Stop(p.animator);
    if p.released then Step(p.(animator := a), [], Some(Threw(Released)))
    else Step(p.(animator := a), [ClearSurface, Emit(ClearEvent)], None)
  }

  /** `destroy`: stops the animator, clears the surface, and drops the renderer, the animator
      and the scene. A second call finds the renderer null and throws. */
  function Destroy(p: State): (r: Step)
    ensures !p.released ==>
      && r.failure == None && r.effects == [ClearSurface]
      && r.state.released && r.state.video.None? && !r.state.animator.running
      && r.state.animator == Animator.Stop(p.animator)
      && r.state.(animator := p.animator, released := p.released, video := p.video) == p
    ensures p.released ==> r == Step(p, [], Some(Threw(Released)))
  {
    if p.released then Step(p, [], Some(Threw(Released)))
    else Step(p.(animator := Animator.Stop(p.animator), released := true, video := None), [ClearSurface], None)
  }

  /** One call of the animator's tick source, with the callbacks it fires delivered to the player. */
  function Tick(p: State, now: real): (r: Step)
    requires Animator.TickDefined(p.animator, now)
    ensures r.failure == None
    ensures !p.animator.running ==> r == Step(p, [], None)
  {
    var t := Animator.Tick(p.animator, now);
    Deliver(p.(animator := t.state), t.signals)
  }

  // ---------------------------------------------------------------------------
  // Properties

  /** Playing backwards swaps the two ends of the forward range. */
  lemma FallbacksSwapBounds(startFrame: int, endFrame: int, total: int)
    ensures var f := Bounds(Forwards, startFrame, endFrame, total);
      Bounds(Fallbacks, startFrame, endFrame, total) == (f.1, f.0)
  {
  }

  /** A share of a range smaller in magnitude than the range lies strictly between -1 and 1. */
  lemma ShareWithin(c: real, span: real)
    requires span != 0.0 && Animator.Abs(c) < Animator.Abs(span)
    ensures -1.0 < c / span < 1.0
  {
    if span > 0.0 {
      Animator.ShareBelowOne(c, span);
    } else {
      Animator.ShareBelowOne(-c, -span);
      assert (-c) / (-span) == c / span;
    }
  }

  /** A start or resume ticked at the instant it starts puts the frame at the start of the
      animator's range plus the frame it starts from (`RestartFrame`), not at that frame: the
      two agree only when the range starts at 0. */
  lemma LandingFrame(p: State, now: real)
    requires p.video.Some? && !p.released
    requires var a := Configure(p);
      && a.endValue != a.startValue && a.duration > 0.0 && Animator.AtLeastOnePass(a.loop)
      && -1.0 < RestartFrame(p) as real / (a.endValue - a.startValue) < 1.0
    ensures StartDefined(p, now, now)
    ensures Start(p, now, now).failure == None && Resume(p, now, now).failure == None
    ensures Start(p, now, now).state.currentFrame
      == Bounds(p.playMode, p.startFrame, p.endFrame, p.totalFramesCount).0 + RestartFrame(p)
    ensures Resume(p, now, now).state.currentFrame == Start(p, now, now).state.currentFrame
  {
    var a := Configure(p);
    var cv := RestartFrame(p) as real;
    Animator.ResumeLandsOnOffset(a, now, cv);
    var run := Animator.Start(a, now, now, cv);
    var v := Animator.AnimatedValue(run.state);
    assert run.signals == [Animator.Started, Animator.Updated(v), Animator.Scheduled];
    LastUpdateOfStart(v, Animator.Scheduled);
  }

  /** Pausing and resuming at once, forwards over the whole scene, stays on the frame it paused on. */
  lemma PauseThenResumeKeepsFrame(p: State, now: real)
    requires Mounted(p) && !p.released && p.playMode.Forwards?
    requires p.startFrame == 0 && p.endFrame == 0 && 0 <= p.currentFrame < p.totalFramesCount
    requires Animator.AtLeastOnePass(LoopCount(p.loop))
    ensures StartDefined(Pause(p).state, now, now)
    ensures Resume(Pause(p).state, now, now).failure == None
    ensures Resume(Pause(p).state, now, now).state.currentFrame == p.currentFrame
  {
    var q := Pause(p).state;
    ShareWithin(p.currentFrame as real, p.totalFramesCount as real);
    LandingFrame(q, now);
  }

  /** Resuming a backwards play from a frame inside the scene overshoots past the last frame. */
  lemma ReverseResumeOvershoots(p: State, now: real)
    requires Mounted(p) && !p.released && p.playMode.Fallbacks?
    requires p.startFrame == 0 && p.endFrame == 0 && 0 < p.currentFrame < p.totalFramesCount
    requires Animator.AtLeastOnePass(LoopCount(p.loop))
    ensures StartDefined(p, now, now)
    ensures Resume(p, now, now).state.currentFrame == p.totalFramesCount + p.currentFrame
    ensures Resume(p, now, now).state.currentFrame > p.totalFramesCount
  {
    ShareWithin(p.currentFrame as real, -(p.totalFramesCount as real));
    LandingFrame(p, now);
  }

  /** With a start frame set, a resume jumps ahead by that many frames. */
  lemma ResumeWithStartFrameJumps(p: State, now: real)
    requires Mounted(p) && !p.released && p.playMode.Forwards?
    requires 0 < p.startFrame && p.endFrame == 0
    requires 0 <= p.currentFrame && p.startFrame + p.currentFrame < p.totalFramesCount
    requires Animator.AtLeastOnePass(LoopCount(p.loop))
    ensures StartDefined(p, now, now)
    ensures Resume(p, now, now).state.currentFrame == p.startFrame + p.currentFrame
  {
    assert EffectiveFrames(p.video.value.frames, p.startFrame, p.endFrame) > 0;
    ShareWithin(p.currentFrame as real, (p.totalFramesCount - p.startFrame) as real);
    LandingFrame(p, now);
  }

  /** Starting at the last frame without a start frame replays from frame 0. */
  lemma RestartFromLastFrame(p: State, now: real)
    requires Mounted(p) && !p.released && p.playMode.Forwards?
    requires p.startFrame == 0 && p.endFrame == 0 && 0 < p.totalFramesCount && p.currentFrame == p.totalFramesCount
    requires Animator.AtLeastOnePass(LoopCount(p.loop))
    ensures StartDefined(p, now, now)
    ensures Start(p, now, now).state.currentFrame == 0
  {
    LandingFrame(p, now);
  }

  /** Starting at the last frame with a start frame set resets the frame to `startFrame`, but
      the range already begins there, so play lands at twice `startFrame` instead. */
  lemma RestartDoublesStartFrame(p: State, now: real)
    requires Mounted(p) && !p.released && p.playMode.Forwards?
    requires 0 < p.startFrame && p.endFrame == 0 && p.currentFrame == p.totalFramesCount
    requires 2 * p.startFrame < p.totalFramesCount
    requires Animator.AtLeastOnePass(LoopCount(p.loop))
    ensures StartDefined(p, now, now)
    ensures Start(p, now, now).state.currentFrame == 2 * p.startFrame
    ensures Start(p, now, now).state.currentFrame != p.startFrame
  {
    assert EffectiveFrames(p.video.value.frames, p.startFrame, p.endFrame) > 0;
    ShareWithin(p.startFrame as real, (p.totalFramesCount - p.startFrame) as real);
    LandingFrame(p, now);
  }

  /** The floor of a value between two whole numbers lies between them too. */
  lemma FloorBetween(v: real, a: real, b: real)
    requires Animator.IsWhole(a) && Animator.IsWhole(b) && Animator.Between(v, a, b)
    ensures Animator.Between(v.Floor as real, a, b)
  {
    var lo, hi := if a <= b then a else b, if a <= b then b else a;
    assert lo <= v <= hi;
    FloorAbove(lo.Floor, v);
  }

  lemma FloorAbove(n: int, v: real)
    requires n as real <= v
    ensures n <= v.Floor
  {
  }

  /** Every tick of a run leaves the frame inside the animator's range; the tick that ends the run
      leaves it on the end the fill rule names, and reaches the `end` handler exactly when it is hooked. */
  lemma TickFrame(p: State, now: real)
    requires p.onUpdate.Some? && p.animator.running
    requires Animator.IsWhole(p.animator.startValue) && Animator.IsWhole(p.animator.endValue)
    requires p.animator.duration > 0.0 && now >= p.animator.startTime
    ensures Animator.TickDefined(p.animator, now)
    ensures var r := Tick(p, now);
      && Animator.Between(r.state.currentFrame as real, p.animator.startValue, p.animator.endValue)
      && (!r.state.animator.running ==>
            r.state.currentFrame as real == (if p.animator.fillRule == 1 then p.animator.startValue else p.animator.endValue))
      && (Emit(EndEvent) in r.effects <==> !r.state.animator.running && p.endHooked)
  {
    var t := Animator.Tick(p.animator, now);
    var v := Animator.AnimatedValue(t.state);
    assert t.signals == [Animator.Updated(v), t.signals[1]];
    LastUpdateOfTick(v, t.signals[1]);
    assert Animator.Ended in t.signals <==> !t.state.running;
    if t.state.running {
      FloorBetween(v, p.animator.startValue, p.animator.endValue);
    }
  }

  /** Once `stop`, `clear` or `pause` has stopped the animator, a tick changes nothing and
      fires nothing: no frame is drawn and neither `process` nor `end` is emitted. */
  lemma HaltedIsSilent(p: State, now: real)
    requires !p.released
    ensures Animator.TickDefined(Stop(p).state.animator, now) && Tick(Stop(p).state, now) == Step(Stop(p).state, [], None)
    ensures Animator.TickDefined(Clear(p).state.animator, now) && Tick(Clear(p).state, now) == Step(Clear(p).state, [], None)
    ensures Animator.TickDefined(Pause(p).state.animator, now) && Tick(Pause(p).state, now) == Step(Pause(p).state, [], None)
  {
  }

  /** After `destroy` the player refuses to play: it has no scene, a new scene's `mount` rejects,
      and playing that scene, or destroying again, throws. */
  lemma DestroyedPlayerRefuses(p: State, v: Video.Entity, now: real, firstTick: real)
    requires !p.released
    ensures var d := Destroy(p).state;
      && Start(d, now, firstTick).failure == Some(Threw(VideoItemUndefined))
      && Mount(d, v).failure == Some(Rejected(Released))
      && Start(Mount(d, v).state, now, firstTick).failure == Some(Threw(Released))
      && Destroy(d).failure == Some(Threw(Released))
  {
  }
}

=== FILE: video.dfy ===
/** The scene document: what the schema decoder yields (`Movie`) and what the
    decode worker hands back to the caller (`Entity`, the source's
    `VideoEntity`). Sprites and per-frame transforms are carried by the
    decoded message but not read by the timing core, so they are not modelled. */
module Video {
  import opened Common

  /** A frame count; a decoded scene has at least one frame. */
  type FrameCount = n: int | n >= 1 witness 1

  /** Frames per second; always positive in a decoded scene. */
  type Rate = r: real | r > 0.0 witness 1.0

  /** The decoded `MovieEntity` message, with its image assets still raw. */
  datatype Movie = Movie(
    frames: FrameCount,
    fps: Rate,
    width: real,
    height: real,
    images: map<string, seq<byte>>)

  /** The scene handed to the player: the movie's parameters and its images as Base64 text. */
  datatype Entity = Entity(
    frames: FrameCount,
    fps: Rate,
    width: real,
    height: real,
    images: map<string, string>)

  /** `new VideoEntity(movie, images)`: the movie's parameters with the transcoded images. */
  function FromMovie(movie: Movie, images: map<string, string>): (v: Entity)
    ensures v.frames == movie.frames && v.fps == movie.fps
    ensures v.width == movie.width && v.height == movie.height
    ensures v.images == images
  {
    Entity(movie.frames, movie.fps, movie.width, movie.height, images)
  }
}
